=== FILE: README.md ===
# InfinityReader book detail core, modelled in Dafny

This project models the book detail logic of the InfinityReader Android novel reader. It covers four pieces:

- **The chapter-list logic of the book detail view model** (`org.ireader.bookDetails`):
  - the file-name rule applied to a title before EPUB export;
  - the Unread / Bookmarked / Downloaded chapter filters, each three-state;
  - the filter and sort toggles;
  - the position of the last-read chapter in the displayed list;
  - the gate that starts a remote refresh at most once, on the first book snapshot.
- **The library cover loader** (`LibraryMangaFetcher`):
  - how a cover string is classified as a URL, a file, or not an image;
  - the memory-cache key;
  - where the image comes from: a local file, the saved library copy, or the HTTP response.

  The file system is a map from path to `{modified, size}` and the HTTP exchange is an abstract response, so every decision is a pure function.
- **The refresh of a book from the page shown in the in-app browser** (`FetchBookDetailAndChapterDetailFromWebView`):
  - modelled as one function that returns the ordered trace of emitted `Resource` values and store writes;
  - the parsers, `removeSameItemsFromList` and `updateBook` are function parameters.
- **The store effects of the legacy detail view model** (`ir.kazemcodes.infinity`):
  - the local database is a book table and a chapter table, both keyed by id;
  - every insert replaces the row with the same primary key;
  - each collector or launched block is one step function over the screen state and the store. A step returns the new state, the new store and the loads it starts.

Files:

- `wrappers.dfy`: `Option` and `Result`.
- `text.dfy`: the Kotlin string operations that are used (`isBlank`, `joinToString`, `startsWith`, `substringAfter`, `Long.toString`).
- `entities.dfy`: the `Book` and `Chapter` records of the new code base.
- `filename.dfy`, `chapter_filters.dfy`, `book_detail.dfy`: the new view model.
- `cover_fetcher.dfy`: the cover loader.
- `webview_fetch.dfy`: the browser refresh.
- `legacy_store.dfy`, `legacy_detail.dfy`: the legacy view model and its store.

## Model

In the source column:

- N = `ui-book-details/src/main/java/org/ireader/bookDetails/viewmodel/BookDetailViewModel.kt`
- M = `domain/src/main/java/org/ireader/domain/feature_services/io/coil/MangaCoverFetcher.kt`
- W = `domain/src/main/java/org/ireader/domain/use_cases/fetchers/FetchDataFromWebView.kt`
- L = `app/src/main/java/ir/kazemcodes/infinity/feature_detail/presentation/book_detail/BookDetailViewModel.kt`

The table spells these paths out in full.

| member | source | states |
|---|---|---|
| Filename.ReplaceReservedIsBlank | ui-book-details/src/main/java/org/ireader/bookDetails/viewmodel/BookDetailViewModel.kt:121-126 | The loop of one `replace(c, ' ')` per reserved character equals a single pass that turns every character of `\|\?*<":>+[]/'` into a space and keeps every other character in place. |
| Filename.SanitizeFilenameSpec | ui-book-details/src/main/java/org/ireader/bookDetails/viewmodel/BookDetailViewModel.kt:121-128 | The sanitized name contains no reserved character. It is never longer than the title. Its characters that are neither reserved nor spaces are exactly the title's, in the same order. |
| Filename.CollapseSpaces | ui-book-details/src/main/java/org/ireader/bookDetails/viewmodel/BookDetailViewModel.kt:127 | The single `replace("  ", " ")` pass turns a run of n spaces into ⌈n/2⌉ spaces. It does not turn the run into one space. |
| Filename.FourSpacesBecomeTwo | ui-book-details/src/main/java/org/ireader/bookDetails/viewmodel/BookDetailViewModel.kt:121-128 | A name of four spaces is sanitized to two spaces. |
| Filename.SanitizeFixedPoint | ui-book-details/src/main/java/org/ireader/bookDetails/viewmodel/BookDetailViewModel.kt:121-128 | A name comes back unchanged exactly when it has no reserved character and no two adjacent spaces. |
| ChapterFilters.Select | ui-book-details/src/main/java/org/ireader/bookDetails/viewmodel/BookDetailViewModel.kt:175-194 | One filter keeps chapters in their input order and gives a subsequence. Included keeps exactly the chapters its predicate accepts. Excluded keeps exactly those it rejects. Missing keeps all. The predicates: Unread is `!read`, Bookmarked is `bookmark`, Downloaded is joined content not blank. |
| ChapterFilters.ActiveFilters | ui-book-details/src/main/java/org/ireader/bookDetails/viewmodel/BookDetailViewModel.kt:171-172 | The valid filters are exactly the Included and Excluded entries of the filter list: every such entry is in the result, and nothing else is. |
| ChapterFilters.ActiveFiltersExact | ui-book-details/src/main/java/org/ireader/bookDetails/viewmodel/BookDetailViewModel.kt:171-172 | `filter` keeps the list order: the valid filters are a subsequence of the list. Each Included or Excluded entry occurs as often as in the list, and a Missing entry not at all. |
| ChapterFilters.ActiveFiltersLast | ui-book-details/src/main/java/org/ireader/bookDetails/viewmodel/BookDetailViewModel.kt:171-172 | The last valid filter is the last Included or Excluded entry of the list. |
| ChapterFilters.NoActiveFilterIsIdentity | ui-book-details/src/main/java/org/ireader/bookDetails/viewmodel/BookDetailViewModel.kt:170-172 | With an empty filter list, or one without an Included or Excluded entry, the chapter list comes back unchanged. |
| ChapterFilters.LastActiveFilterDecides | ui-book-details/src/main/java/org/ireader/bookDetails/viewmodel/BookDetailViewModel.kt:173-197 | Each iteration filters the original list. So when some filter is on, the result is what the last Included or Excluded entry of the filter list keeps on its own. |
| ChapterFilters.FilteredIsSubsequence | ui-book-details/src/main/java/org/ireader/bookDetails/viewmodel/BookDetailViewModel.kt:169-198 | Whatever the filters, the result is a subsequence of the input. |
| ChapterFilters.DownloadedMeansSomePage | ui-book-details/src/main/java/org/ireader/bookDetails/viewmodel/BookDetailViewModel.kt:184-188 | `content.joinToString("").isNotBlank()` holds exactly when some page of the chapter is not blank. |
| ChapterFilters.ToggleFilter | ui-book-details/src/main/java/org/ireader/bookDetails/viewmodel/BookDetailViewModel.kt:316-333 | The list keeps its length and its types. The entries of the toggled type advance Included → Excluded → Missing → Included. Every other entry is unchanged. |
| ChapterFilters.ToggleFilterThrice | ui-book-details/src/main/java/org/ireader/bookDetails/viewmodel/BookDetailViewModel.kt:316-333 | Three toggles of the same type restore the filter list. |
| ChapterFilters.ToggleFilterCommutes | ui-book-details/src/main/java/org/ireader/bookDetails/viewmodel/BookDetailViewModel.kt:316-333 | Toggles of two types give the same list in either order. |
| ChapterFilters.ToggleSort | ui-book-details/src/main/java/org/ireader/bookDetails/viewmodel/BookDetailViewModel.kt:338-345 | The new order has the requested type. The direction flips when that type was already current and is kept otherwise. |
| ChapterFilters.ToggleSortTwice | ui-book-details/src/main/java/org/ireader/bookDetails/viewmodel/BookDetailViewModel.kt:338-345 | Toggling the current type twice restores the order. Toggling another type twice ends on that type with the direction REVERSED, so it is not the identity. |
| BookDetail.LastChapterIndex | ui-book-details/src/main/java/org/ireader/bookDetails/viewmodel/BookDetailViewModel.kt:233-242 | The result is the smallest index i with `reversed(chapters)[i].id == lastRead`, which is the last matching chapter of the original list. When no chapter matches, the result is the failure "chapter not found". |
| BookDetail.OnBookSnapshot | ui-book-details/src/main/java/org/ireader/bookDetails/viewmodel/BookDetailViewModel.kt:97-113 | Each snapshot becomes the shown book. A refresh of exactly that snapshot is requested iff this is the first snapshot and it qualifies (exists, never updated, source installed); the refresh turns the detail and chapter spinners on. Otherwise the detail spinner is off, and the first snapshot also turns the chapter spinner off; later ones leave it as it was. |
| BookDetail.RunSnapshots | ui-book-details/src/main/java/org/ireader/bookDetails/viewmodel/BookDetailViewModel.kt:97-113 | Over any sequence of book snapshots, only the first one can request a remote refresh, and only while `initBooks` is unset. Afterwards `initBooks` is set and the shown book is the latest snapshot. |
| BookDetail.RefreshAtMostOnce | ui-book-details/src/main/java/org/ireader/bookDetails/viewmodel/BookDetailViewModel.kt:102-111 | From the initial state at most one refresh is requested. One is requested exactly when the first snapshot is non-null, has `lastUpdate < 1`, and its source is installed. |
| Text.JoinIsBlank | ui-book-details/src/main/java/org/ireader/bookDetails/viewmodel/BookDetailViewModel.kt:186 | A joined list of strings is blank exactly when each of them is. |
| Text.SubstringAfter | domain/src/main/java/org/ireader/domain/feature_services/io/coil/MangaCoverFetcher.kt:69 | `substringAfter(d)` returns the string unchanged when `d` does not occur. A leading `d` is removed. Otherwise the string is cut after the FIRST occurrence of `d`: no earlier position holds `d`. |
| Text.DecimalInjective | domain/src/main/java/org/ireader/domain/feature_services/io/coil/MangaCoverFetcher.kt:41 | Distinct `Long` values render to distinct decimal strings. This follows from the parse round trip. |
| CoverFetcher.ResourceTypeOf | domain/src/main/java/org/ireader/domain/feature_services/io/coil/MangaCoverFetcher.kt:137-144 | A cover is a URL exactly when it starts with `http`. It is a file exactly when it does not start with `http` but starts with `/` or `file://`. Otherwise, including the empty string, it is not an image. |
| CoverFetcher.PlainPathIsCut | domain/src/main/java/org/ireader/domain/feature_services/io/coil/MangaCoverFetcher.kt:68-71 | As written, the file cover `/a/file://b` is opened as the path `b`; the intended path is `/a/file://b`. |
| CoverFetcher.PathsAgree | domain/src/main/java/org/ireader/domain/feature_services/io/coil/MangaCoverFetcher.kt:40 | For a cover that starts with `file://`, or that contains no `file://`, the path as written equals the corrected path. |
| CoverFetcher.CoverPath | domain/src/main/java/org/ireader/domain/feature_services/io/coil/MangaCoverFetcher.kt:68-71 | The corrected path strips a leading `file://` and leaves any other cover as it is. |
| CoverFetcher.KeyTracksTimestamp | domain/src/main/java/org/ireader/domain/feature_services/io/coil/MangaCoverFetcher.kt:37-53 | For one cacheable cover, the key changes exactly when the keyed file's last-modified time does. A rewritten cover never hits a stale memory-cache entry, and an untouched one keeps its key. |
| CoverFetcher.KeyInjective | domain/src/main/java/org/ireader/domain/feature_services/io/coil/MangaCoverFetcher.kt:37-53 | Two cacheable covers share a key exactly when they are the same cover and their keyed files have the same last-modified time. |
| CoverFetcher.KeyStringInjective | domain/src/main/java/org/ireader/domain/feature_services/io/coil/MangaCoverFetcher.kt:41-48 | The key string `cover_timestamp` determines both the cover and the timestamp, because a rendered `Long` never contains `_`. |
| CoverFetcher.Fetch | domain/src/main/java/org/ireader/domain/feature_services/io/coil/MangaCoverFetcher.kt:55-79 | `fetch` fails with "Not a valid image" exactly when the cover is unclassifiable. A file cover is opened from disk with no network call and no file change. |
| CoverFetcher.SavedCopyNeedsNoNetwork | domain/src/main/java/org/ireader/domain/feature_services/io/coil/MangaCoverFetcher.kt:81-85 | A URL cover whose library file exists with a nonzero timestamp is served from that file, from disk. No network call is made and nothing is written. |
| CoverFetcher.NetworkOnlyWithoutCopy | domain/src/main/java/org/ireader/domain/feature_services/io/coil/MangaCoverFetcher.kt:81-91 | The network is called exactly when there is no usable library copy. |
| CoverFetcher.FavouriteAlwaysFromLibraryFile | domain/src/main/java/org/ireader/domain/feature_services/io/coil/MangaCoverFetcher.kt:93-111 | For a favourite, the "save" and "same size" branches together cover every response with a body. The result is always the library file, which then exists. When it was fetched, it carries the current time. |
| CoverFetcher.OthersStreamTheBody | domain/src/main/java/org/ireader/domain/feature_services/io/coil/MangaCoverFetcher.kt:113-118 | A non-favourite URL cover without a library copy streams the body. Its data source is DISK exactly when the HTTP cache answered, and NETWORK otherwise. No file is written. |
| CoverFetcher.UrlLoaderFrame | domain/src/main/java/org/ireader/domain/feature_services/io/coil/MangaCoverFetcher.kt:93-111 | Only the library file and its `.tmp` file can change. |
| CoverFetcher.SecondFetchFromDisk | domain/src/main/java/org/ireader/domain/feature_services/io/coil/MangaCoverFetcher.kt:37-119 | After a favourite URL cover is fetched once at a nonzero time, the next fetch makes no network call and returns the same file. The memory-cache key then carries the save time. |
| WebViewFetch.FetchFromWebView | domain/src/main/java/org/ireader/domain/use_cases/fetchers/FetchDataFromWebView.kt:20-70 | The cases: (1) an empty chapter list or a parser exception emits exactly one "failed to get content" and writes nothing; (2) otherwise the first event is "trying to fetch"; (3) the store is written only when the local chapter list is non-null and the local book's title is not blank; (4) then the writes are, in order, delete the book's chapters, insert the merged book, insert the stamped chapters, and a single Success naming the title and the parsed count comes last; (5) a store exception keeps the writes before it and ends with "failed to get content"; (6) otherwise the flow emits "failed to get content", then "trying in a few seconds" exactly when the local chapter list is null, and writes nothing. |
| WebViewFetch.InsertedChaptersAreStamped | domain/src/main/java/org/ireader/domain/use_cases/fetchers/FetchDataFromWebView.kt:43-49 | Every chapter written carries the local book's id and its `favorite` flag as `inLibrary`. |
| WebViewFetch.SteadyClockGivesCommonDate | domain/src/main/java/org/ireader/domain/use_cases/fetchers/FetchDataFromWebView.kt:47 | The written chapters share one `dateFetch` when the clock reads the same value for each of them. The clock is read once per chapter. |
| WebViewFetch.DeleteWithoutInsert | domain/src/main/java/org/ireader/domain/use_cases/fetchers/FetchDataFromWebView.kt:28-42 | The writes are not atomic: when inserting the book throws, the book's chapters have been deleted and nothing replaces them. |
| LegacyDetail.InsertChaptersToLocal | app/src/main/java/ir/kazemcodes/infinity/feature_detail/presentation/book_detail/BookDetailViewModel.kt:344-349 | The book's stored chapters become exactly the ids of the given list, each holding the last chapter of the list with that id with `bookId` overwritten. No earlier chapter of the book survives. Rows of other books are untouched unless the list reuses their ids. Books are unchanged. |
| LegacyDetail.UpdateChaptersEntity | app/src/main/java/ir/kazemcodes/infinity/feature_detail/presentation/book_detail/BookDetailViewModel.kt:315-321 | Each chapter on screen is stored as the screen chapter with `inLibrary = f` and `bookId` of the view model; a duplicate id keeps its last entry. The stored ids are the old ones plus those of the screen list. Other rows and the books are unchanged. |
| LegacyDetail.ToggleInLibrary | app/src/main/java/ir/kazemcodes/infinity/feature_detail/presentation/book_detail/BookDetailViewModel.kt:323-338 | The screen flag becomes `add`. Removing writes `book ?: shown` under the view model's id with `inLibrary = false`. Adding without a book writes the shown book under that id with `inLibrary = true` and `dataAdded` = the current time. Adding WITH a book stores that book exactly as given. Only that one book row is added or replaced. Each chapter on screen is stored as itself with `inLibrary = add` and the view model's `bookId`. No other chapter row changes. |
| LegacyDetail.RemoveThenAdd | app/src/main/java/ir/kazemcodes/infinity/feature_detail/presentation/book_detail/BookDetailViewModel.kt:323-338 | Removing from the library and then adding back, both without a book, leaves the same screen state and the same book table as adding alone. The book row is the shown book under the view model's id, with `inLibrary = true` and the time of the add. |
| LegacyDetail.RemoveThenAddChapter | app/src/main/java/ir/kazemcodes/infinity/feature_detail/presentation/book_detail/BookDetailViewModel.kt:323-338 | After removing and then adding back, each chapter on screen is stored exactly as adding alone stores it, with `inLibrary = true`. |
| LegacyDetail.UpdateInLibrary | app/src/main/java/ir/kazemcodes/infinity/feature_detail/presentation/book_detail/BookDetailViewModel.kt:340-342 | The screen flag becomes `isIn`. The book id, the shown book, the explore and loading flags, the chapter state and the store are all unchanged. |
| LegacyDetail.OnLocalBook | app/src/main/java/ir/kazemcodes/infinity/feature_detail/presentation/book_detail/BookDetailViewModel.kt:88-127 | A found book is shown with its `inLibrary`, spinner off, `isLoaded` on and the explore flag off, and its chapters are loaded. The remote detail and chapters are requested exactly for an explore-mode book; a non-explore book starts only the chapter load. A missing book ends loading with `isLoaded` on and starts nothing; an error only stops the spinner. The chapter state and the store are unchanged. |
| LegacyDetail.OnLocalChapters | app/src/main/java/ir/kazemcodes/infinity/feature_detail/presentation/book_detail/BookDetailViewModel.kt:130-164 | A loaded list is shown with the spinner off and `loaded` on, the rest of the chapter state kept, and the last chapter is queried. The book row is rewritten only when its `totalChapters` differs from the loaded count, and then with that count; no other book row is added or changed. A null list keeps the shown list, ends loading and starts nothing. A failed query leaves the spinner on and requests the remote chapter list. The screen state is unchanged. |
| LegacyDetail.ReconcileIdempotent | app/src/main/java/ir/kazemcodes/infinity/feature_detail/presentation/book_detail/BookDetailViewModel.kt:146-149 | Processing the same chapter list twice leaves the store as once. |
| LegacyDetail.OnRemoteDetail | app/src/main/java/ir/kazemcodes/infinity/feature_detail/presentation/book_detail/BookDetailViewModel.kt:167-210 | The remote book is stored under the local id, with the current explore flag and `dataAdded = now`; its other fields are the remote ones. That is the only book row added or replaced. It is shown with the spinner off and `isLoaded` on. Other books, all chapters and the chapter state are unchanged. A null result leaves the spinner on and `isLoaded` off; an error stops the spinner with `isLoaded` off. |
| LegacyDetail.ExploreBookStoredWithoutFlag | app/src/main/java/ir/kazemcodes/infinity/feature_detail/presentation/book_detail/BookDetailViewModel.kt:105-192 | Opening an explore-mode book and then receiving its remote detail stores the book with the explore flag OFF. |
| LegacyDetail.OnRemoteChapters | app/src/main/java/ir/kazemcodes/infinity/feature_detail/presentation/book_detail/BookDetailViewModel.kt:212-256 | The remote list, stamped with the book's id and name, is shown with the spinner off and `lastChapter` kept; a null result leaves the spinner on and an error stops it. For this book the store then holds exactly the ids of `dedup(shown, stamped)`, each as the list's last entry with that id. Every earlier stored chapter of the book outside that list is gone. The stored ids are the list's plus those of other books. Other books' chapters outside the list and all books are unchanged. |
| LegacyDetail.DeleteChapterDetails | app/src/main/java/ir/kazemcodes/infinity/feature_detail/presentation/book_detail/BookDetailViewModel.kt:295-299 | No chapter of the book remains. The stored ids are the old ones minus exactly the book's, so nothing is added. Every other chapter and every book is kept. |
| LegacyDetail.ReadLastReadBook | app/src/main/java/ir/kazemcodes/infinity/feature_detail/presentation/book_detail/BookDetailViewModel.kt:301-307 | The result is the last chapter marked `lastRead`, or the first chapter when none is marked. An empty list has no result, since `first()` throws. |

## Left out

- Compose UI, the event flow of snackbars, coroutine scopes, `Job` cancellation and WorkManager: rendering and scheduling, not logic. Each launched block is one sequential step.
- The order of writes: launched writes happen in program order. Interleavings of concurrently launched coroutines are not modelled.
- Jsoup parsing, `detailParse`/`chaptersParse`, OkHttp request building (`getCall`) and the remote use cases: foreign code. Their outcomes are inputs: the `Parsed` value, the `Response` value, and the `Loaded` results.
- `removeSameItemsFromList` and `updateBook`: their bodies are not part of this model. They are function parameters (`dedup`, `merge`), and their possible exceptions are not modelled.
- The wall clock (`System.currentTimeMillis`, `Clock.System.now()`, `Calendar`): a parameter. In the browser refresh it is a function of the chapter position, because the code reads it once per chapter.
- Room DAOs: their bodies are not part of this model. Inserts replace by primary key and ids are taken as given; id autogeneration is not modelled.
- Chapter storage: the legacy chapter table is a map keyed by chapter id rather than a list of rows.
- I/O failures in the cover loader: failures of `saveTo`, `renameTo`, `delete` and `setLastModified` are not modelled. A save always leaves the library file with the body's size and the current time, and no `.tmp` file.
- Opening a missing file: modelled as the failure `FileNotFound`.
- The legacy `getChaptersByBookId` query's ordering by `areChaptersReversed`, `getLastChapter`, `getWebViewData` and `startDownloadService`: they only pass data through or schedule work.
- The new view model's `getRemoteBookDetail`/`getRemoteChapterDetail` bodies, history subscription, EPUB writing and download service: outside the core logic. Their effect on the refresh gate is modelled as turning both spinners on (`BookDetail.OnBookSnapshot`).
- A null parsed chapter list is treated as empty, as `isNullOrEmpty` does.
- CoverFetcher.Key: uses the corrected path; the path as written is `CoverFetcher.FilePathAsWritten` (see Findings).
- CoverFetcher.Fetch: uses the corrected path for file covers (see Findings).

## Findings

| source | as written | input that shows it | evidently intended | confidence | as-written member | corrected member |
|---|---|---|---|---|---|---|
| domain/src/main/java/org/ireader/domain/feature_services/io/coil/MangaCoverFetcher.kt:69 | The path of a file cover is `cover.substringAfter("file://")`. That call cuts after the first `file://` ANYWHERE in the string, also inside a plain `/...` path. The same call appears at line 40. | The cover `/a/file://b` is classified as a file cover and opened as the relative path `b`. | Strip only a leading `file://`, and pass plain absolute paths through unchanged. | low; not executed | CoverFetcher.PlainPathIsCut | CoverFetcher.CoverPath |

=== FILE: book_detail.dfy ===
/** The book detail view model's own state logic: the position of the
    last-read chapter in the displayed (reversed) list, and the gate that
    starts a remote refresh at most once, on the first book snapshot. */
module BookDetail {
  import opened Wrappers
  import opened Entities

  function Reverse<T>(s: seq<T>): (r: seq<T>)
    ensures |r| == |s|
    ensures forall i :: 0 <= i < |s| ==> r[i] == s[|s| - 1 - i]
  {
    if |s| == 0 then [] else Reverse(s[1..]) + [s[0]]
  }

  const ChapterNotFound: string := "chapter not found"

  /** `getLastChapterIndex()`: the first position in the reversed chapter list
      whose id is the last-read chapter id (`lastRead` is nullable), or the
      exception "chapter not found". */
  method LastChapterIndex(chapters: seq<Chapter>, lastRead: Option<int>) returns (r: Result<nat, string>)
    ensures r.Success? ==> r.value < |chapters| && Some(Reverse(chapters)[r.value].id) == lastRead
    ensures r.Success? ==> forall j :: 0 <= j < r.value ==> Some(Reverse(chapters)[j].id) != lastRead
    ensures r.Success? ==> forall k :: |chapters| - 1 - r.value < k < |chapters| ==> Some(chapters[k].id) != lastRead
    ensures r.Failure? <==> forall c :: c in chapters ==> Some(c.id) != lastRead
    ensures r.Failure? ==> r.error == ChapterNotFound
  {
    var reversed := Reverse(chapters);
    var i := 0;
    while i < |reversed|
      invariant 0 <= i <= |reversed|
      invariant forall j :: 0 <= j < i ==> Some(reversed[j].id) != lastRead
      invariant forall k :: |chapters| - i <= k < |chapters| ==> Some(chapters[k].id) != lastRead
    {
      if Some(reversed[i].id) == lastRead {
        return Success(i);
      }
      i := i + 1;
    }
    forall c | c in chapters ensures Some(c.id) != lastRead {
      var k :| 0 <= k < |chapters| && chapters[k] == c;
      assert reversed[|chapters| - 1 - k] == c;
    }
    return Failure(ChapterNotFound);
  }

  // ---- the refresh-once gate of subscribeBook -------------------------------

  datatype DetailVm = DetailVm(
    /** set by the first snapshot; never cleared */
    initBooks: bool,
    book: Option<Book>,
    detailIsLoading: bool,
    chapterIsLoading: bool
  )

  /** The state after `init` subscribed to the book: both spinners on. */
  const InitialVm: DetailVm := DetailVm(false, None, true, true)

  /** The condition under which the first snapshot starts a remote refresh:
      the book exists, was never refreshed, and its source is installed. */
  predicate NeedsRemoteRefresh(snapshot: Option<Book>, sourcePresent: bool) {
    snapshot.Some? && snapshot.value.lastUpdate < 1 && sourcePresent
  }

  /** The new state and the book whose remote detail and chapters were requested, if any. */
  datatype Step = Step(vm: DetailVm, refreshed: Option<Book>)

  /** One emission of `subscribeBookById`. */
  function OnBookSnapshot(vm: DetailVm, snapshot: Option<Book>, sourcePresent: bool): (r: Step)
    ensures r.vm.book == snapshot && r.vm.initBooks
    ensures r.refreshed.Some? <==> !vm.initBooks && NeedsRemoteRefresh(snapshot, sourcePresent)
    ensures r.refreshed.Some? ==> r.refreshed == snapshot && r.vm.detailIsLoading && r.vm.chapterIsLoading
    ensures r.refreshed.None? ==> !r.vm.detailIsLoading
    ensures vm.initBooks ==> r.vm.chapterIsLoading == vm.chapterIsLoading
    ensures !vm.initBooks && r.refreshed.None? ==> !r.vm.chapterIsLoading
  {
    var shown := vm.(book := snapshot, detailIsLoading := false);
    if vm.initBooks then Step(shown, None)
    else if NeedsRemoteRefresh(snapshot, sourcePresent) then
      // getRemoteBookDetail and getRemoteChapterDetail turn both spinners on
      Step(shown.(initBooks := true, detailIsLoading := true, chapterIsLoading := true), snapshot)
    else
      Step(shown.(initBooks := true, detailIsLoading := false, chapterIsLoading := false), None)
  }

  /** A sequence of emissions, collecting every remote refresh requested. */
  function RunSnapshots(vm: DetailVm, snapshots: seq<Option<Book>>, sourcePresent: bool): (r: (DetailVm, seq<Book>))
    ensures vm.initBooks ==> r.1 == []
    ensures !vm.initBooks ==>
      r.1 == (if |snapshots| > 0 && NeedsRemoteRefresh(snapshots[0], sourcePresent) then [snapshots[0].value] else [])
    ensures |snapshots| > 0 ==> r.0.initBooks && r.0.book == snapshots[|snapshots| - 1]
    ensures |snapshots| == 0 ==> r.0 == vm
    decreases |snapshots|
  {
    if |snapshots| == 0 then (vm, [])
    else
      var step := OnBookSnapshot(vm, snapshots[0], sourcePresent);
      var rest := RunSnapshots(step.vm, snapshots[1..], sourcePresent);
      (rest.0, (if step.refreshed.Some? then [step.refreshed.value] else []) + rest.1)
  }

  /** Over the life of the view model the remote refresh happens at most once,
      and only for a qualifying FIRST snapshot. */
  lemma RefreshAtMostOnce(snapshots: seq<Option<Book>>, sourcePresent: bool)
    ensures |RunSnapshots(InitialVm, snapshots, sourcePresent).1| <= 1
    ensures |RunSnapshots(InitialVm, snapshots, sourcePresent).1| == 1 <==>
      |snapshots| > 0 && NeedsRemoteRefresh(snapshots[0], sourcePresent)
  {
  }
}

=== FILE: chapter_filters.dfy ===
/** The chapter-list filters and sort order of the book detail screen: the
    three-state filters (Unread, Bookmarked, Downloaded), the pipeline that
    applies them to a chapter list, and the toggles the toolbar calls. */
module ChapterFilters {
  import opened Entities
  import Text

  datatype FilterType = Unread | Bookmarked | Downloaded

  datatype FilterValue = Included | Excluded | Missing

  datatype ChaptersFilter = ChaptersFilter(filterType: FilterType, value: FilterValue)

  /** A sort order over some sort key type `K` (the key types are not part of this model). */
  datatype ChapterSort<K> = ChapterSort(sortType: K, isAscending: bool)

  // ---- filtering -------------------------------------------------------------

  /** A chapter counts as downloaded when its joined content is not blank. */
  predicate IsDownloaded(c: Chapter) {
    !Text.IsBlank(Text.Join(c.content))
  }

  /** The predicate behind each filter type. */
  predicate Matches(t: FilterType, c: Chapter) {
    match t
    case Unread => !c.read
    case Bookmarked => c.bookmark
    case Downloaded => IsDownloaded(c)
  }

  /** Whether applying filter `f` keeps chapter `c`. */
  predicate Keeps(f: ChaptersFilter, c: Chapter) {
    match f.value
    case Included => Matches(f.filterType, c)
    case Excluded => !Matches(f.filterType, c)
    case Missing => true
  }

  predicate IsActive(f: ChaptersFilter) {
    f.value == Included || f.value == Excluded
  }

  /** `a` is obtained from `b` by deleting elements. */
  predicate IsSubsequence<T(==)>(a: seq<T>, b: seq<T>)
    decreases |b|
  {
    |a| == 0 || (|b| > 0 && if a[0] == b[0] then IsSubsequence(a[1..], b[1..]) else IsSubsequence(a, b[1..]))
  }

  /** How many chapters of `chs` filter `f` keeps. */
  function KeptCount(chs: seq<Chapter>, f: ChaptersFilter): nat {
    if |chs| == 0 then 0 else (if Keeps(f, chs[0]) then 1 else 0) + KeptCount(chs[1..], f)
  }

  /** One filter applied to a list: `filter` for Included, `filterNot` for
      Excluded, the list itself for Missing. */
  function Select(chs: seq<Chapter>, f: ChaptersFilter): (r: seq<Chapter>)
    ensures IsSubsequence(r, chs)
    ensures |r| == KeptCount(chs, f)
    ensures forall c :: c in r ==> Keeps(f, c)
    ensures forall c :: c in chs && Keeps(f, c) ==> c in r
  {
    if |chs| == 0 then []
    else if Keeps(f, chs[0]) then [chs[0]] + Select(chs[1..], f)
    else Select(chs[1..], f)
  }

  /** The filters that are switched on, in order: every active entry, each as
      often as it occurs, and nothing else. */
  function ActiveFilters(filters: seq<ChaptersFilter>): (r: seq<ChaptersFilter>)
    ensures forall g :: g in r ==> IsActive(g) && g in filters
    ensures forall g :: g in filters && IsActive(g) ==> g in r
  {
    if |filters| == 0 then []
    else (if IsActive(filters[0]) then [filters[0]] else []) + ActiveFilters(filters[1..])
  }

  /** `ActiveFilters` keeps the order of the list and each active entry as
      often as it occurs, and drops every inactive one. */
  lemma {:induction false} ActiveFiltersExact(filters: seq<ChaptersFilter>)
    ensures IsSubsequence(ActiveFilters(filters), filters)
    ensures forall g :: multiset(ActiveFilters(filters))[g] == if IsActive(g) then multiset(filters)[g] else 0
    decreases |filters|
  {
    if |filters| > 0 {
      var rest := ActiveFilters(filters[1..]);
      ActiveFiltersExact(filters[1..]);
      assert filters == [filters[0]] + filters[1..];
      var r := ActiveFilters(filters);
      if IsActive(filters[0]) {
        assert r[0] == filters[0] && r[1..] == rest;
      } else if |rest| > 0 {
        assert r == rest && IsActive(rest[0]);
      }
    }
  }

  /** The index of the last switched-on filter. */
  function LastActiveIndex(filters: seq<ChaptersFilter>): (i: int)
    requires exists g :: g in filters && IsActive(g)
    ensures 0 <= i < |filters| && IsActive(filters[i])
    ensures forall j :: i < j < |filters| ==> !IsActive(filters[j])
    decreases |filters|
  {
    if IsActive(filters[|filters| - 1]) then |filters| - 1
    else
      assert exists g :: g in filters[..|filters| - 1] && IsActive(g) by {
        var g :| g in filters && IsActive(g);
        var j :| 0 <= j < |filters| && filters[j] == g;
        assert filters[..|filters| - 1][j] == g;
      }
      LastActiveIndex(filters[..|filters| - 1])
  }

  lemma {:induction false} NoneActive(filters: seq<ChaptersFilter>)
    requires forall j :: 0 <= j < |filters| ==> !IsActive(filters[j])
    ensures ActiveFilters(filters) == []
    decreases |filters|
  {
    if |filters| > 0 {
      NoneActive(filters[1..]);
    }
  }

  /** The last entry of `ActiveFilters` is the last switched-on filter. */
  lemma {:induction false} ActiveFiltersLast(filters: seq<ChaptersFilter>, i: int)
    requires 0 <= i < |filters| && IsActive(filters[i])
    requires forall j :: i < j < |filters| ==> !IsActive(filters[j])
    ensures |ActiveFilters(filters)| > 0
    ensures ActiveFilters(filters)[|ActiveFilters(filters)| - 1] == filters[i]
    decreases |filters|
  {
    var rest := ActiveFilters(filters[1..]);
    if i == 0 {
      NoneActive(filters[1..]);
    } else {
      ActiveFiltersLast(filters[1..], i - 1);
    }
  }

  /** The loop over the active filters. Every iteration filters the ORIGINAL
      list `chs`, not the list of the previous iteration. */
  function FilterLoop(chs: seq<Chapter>, valid: seq<ChaptersFilter>, acc: seq<Chapter>): seq<Chapter>
    decreases |valid|
  {
    if |valid| == 0 then acc else FilterLoop(chs, valid[1..], Select(chs, valid[0]))
  }

  function FilteredWith(chs: seq<Chapter>, filters: seq<ChaptersFilter>): seq<Chapter> {
    if |filters| == 0 then chs else FilterLoop(chs, ActiveFilters(filters), chs)
  }

  // ---- properties of the pipeline ------------------------------------------

  lemma {:induction false} FilterLoopIsLast(chs: seq<Chapter>, valid: seq<ChaptersFilter>, acc: seq<Chapter>)
    ensures FilterLoop(chs, valid, acc) == if |valid| == 0 then acc else Select(chs, valid[|valid| - 1])
    decreases |valid|
  {
    if |valid| > 0 {
      FilterLoopIsLast(chs, valid[1..], Select(chs, valid[0]));
    }
  }

  /** No switched-on filter: the list comes back unchanged. */
  lemma NoActiveFilterIsIdentity(chs: seq<Chapter>, filters: seq<ChaptersFilter>)
    requires forall g :: g in filters ==> !IsActive(g)
    ensures FilteredWith(chs, filters) == chs
  {
    if |filters| > 0 {
      var v := ActiveFilters(filters);
      if |v| > 0 {
        assert v[0] in v;
      }
      FilterLoopIsLast(chs, v, chs);
    }
  }

  /** With at least one switched-on filter, only the LAST of them decides the
      result; it keeps exactly the chapters that filter keeps, in order. */
  lemma LastActiveFilterDecides(chs: seq<Chapter>, filters: seq<ChaptersFilter>)
    requires exists g :: g in filters && IsActive(g)
    ensures exists i :: (0 <= i < |filters| && IsActive(filters[i])
      && (forall j :: i < j < |filters| ==> !IsActive(filters[j]))
      && FilteredWith(chs, filters) == Select(chs, filters[i]))
  {
    var i := LastActiveIndex(filters);
    ActiveFiltersLast(filters, i);
    FilterLoopIsLast(chs, ActiveFilters(filters), chs);
  }

  /** Whatever the filters, the result is a subsequence of the input. */
  lemma FilteredIsSubsequence(chs: seq<Chapter>, filters: seq<ChaptersFilter>)
    ensures IsSubsequence(FilteredWith(chs, filters), chs)
  {
    if |filters| > 0 {
      FilterLoopIsLast(chs, ActiveFilters(filters), chs);
      if |ActiveFilters(filters)| == 0 {
        SubsequenceReflexive(chs);
      }
    } else {
      SubsequenceReflexive(chs);
    }
  }

  lemma {:induction false} SubsequenceReflexive<T>(s: seq<T>)
    ensures IsSubsequence(s, s)
  {
    if |s| > 0 {
      SubsequenceReflexive(s[1..]);
    }
  }

  /** The Downloaded filter keeps a chapter exactly when some page is not blank. */
  lemma DownloadedMeansSomePage(c: Chapter)
    ensures IsDownloaded(c) <==> exists i :: 0 <= i < |c.content| && !Text.IsBlank(c.content[i])
  {
    Text.JoinIsBlank(c.content);
  }

  // ---- the three-state toggle ----------------------------------------------

  /** Included -> Excluded -> Missing -> Included. */
  function Next(v: FilterValue): FilterValue {
    match v
    case Included => Excluded
    case Excluded => Missing
    case Missing => Included
  }

  /** `toggleFilter(t)`: every entry of type `t` advances by one state, every
      other entry is kept as it is. */
  function ToggleFilter(filters: seq<ChaptersFilter>, t: FilterType): (r: seq<ChaptersFilter>)
    ensures |r| == |filters|
    ensures forall i :: 0 <= i < |r| ==> r[i].filterType == filters[i].filterType
    ensures forall i :: 0 <= i < |r| && filters[i].filterType != t ==> r[i] == filters[i]
    ensures forall i :: 0 <= i < |r| && filters[i].filterType == t ==> r[i].value == Next(filters[i].value)
  {
    if |filters| == 0 then []
    else
      var f := filters[0];
      [if f.filterType == t then ChaptersFilter(t, Next(f.value)) else f] + ToggleFilter(filters[1..], t)
  }

  /** Three toggles of the same type restore the list. */
  lemma ToggleFilterThrice(filters: seq<ChaptersFilter>, t: FilterType)
    ensures ToggleFilter(ToggleFilter(ToggleFilter(filters, t), t), t) == filters
  {
    var r := ToggleFilter(ToggleFilter(ToggleFilter(filters, t), t), t);
    assert forall i :: 0 <= i < |r| ==> r[i] == filters[i];
  }

  /** Toggles of different types do not interfere. */
  lemma ToggleFilterCommutes(filters: seq<ChaptersFilter>, a: FilterType, b: FilterType)
    ensures ToggleFilter(ToggleFilter(filters, a), b) == ToggleFilter(ToggleFilter(filters, b), a)
  {
    var x := ToggleFilter(ToggleFilter(filters, a), b);
    var y := ToggleFilter(ToggleFilter(filters, b), a);
    assert forall i :: 0 <= i < |x| ==> x[i] == y[i];
  }

  // ---- the sort toggle -----------------------------------------------------

  /** `toggleSort(t)`: the same type flips the direction; another type is
      selected with the direction kept. */
  function ToggleSort<K(==)>(current: ChapterSort<K>, t: K): (r: ChapterSort<K>)
    ensures r.sortType == t
    ensures t == current.sortType ==> r.isAscending == !current.isAscending
    ensures t != current.sortType ==> r.isAscending == current.isAscending
  {
    if t == current.sortType then current.(isAscending := !current.isAscending)
    else current.(sortType := t)
  }

  /** Toggling the current type twice restores the order; toggling another
      type twice ends on that type with the direction reversed. */
  lemma ToggleSortTwice<K>(current: ChapterSort<K>, t: K)
    ensures t == current.sortType ==> ToggleSort(ToggleSort(current, t), t) == current
    ensures t != current.sortType ==>
      ToggleSort(ToggleSort(current, t), t) == ChapterSort(t, !current.isAscending)
  {
  }
}

=== FILE: cover_fetcher.dfy ===
/** The image loader for library book covers: how a cover string is
    classified, which memory-cache key it gets, and whether the image comes
    from a local file, from the saved library copy, or from the network.
    The file system is a table of file records and the HTTP exchange an
    abstract response, so every decision is a pure function. */
module CoverFetcher {
  import opened Wrappers
  import Text

  datatype BookCover = BookCover(id: int, sourceId: int, cover: string, favorite: bool)

  datatype ResourceType = FileCover | UrlCover

  /** The attributes of an existing file. A missing file reads as
      `lastModified() == 0` and `length() == 0`, as `java.io.File` reports. */
  datatype FileInfo = FileInfo(modified: int, size: int)

  type Files = map<string, FileInfo>

  predicate Exists(files: Files, path: string) {
    path in files
  }

  function LastModified(files: Files, path: string): int {
    if path in files then files[path].modified else 0
  }

  function Length(files: Files, path: string): int {
    if path in files then files[path].size else 0
  }

  /** The body of an HTTP response: the advertised `contentLength` (-1 when
      unknown) and the number of bytes it actually holds. */
  datatype Body = Body(contentLength: int, size: nat)

  /** A response; `fromCache` when OkHttp answered from its disk cache. */
  datatype Response = Response(body: Option<Body>, fromCache: bool)

  datatype DataSource = DiskSource | NetworkSource

  datatype ImageSource = FileSource(path: string) | BodySource

  datatype SourceResult = SourceResult(source: ImageSource, mimeType: string, dataSource: DataSource)

  datatype FetchError =
    | NotValidImage          // `error("Not a valid image")`
    | FileNotFound(path: string)
    | CallFailed             // `call.execute()` threw
    | NullBody               // "Response received null body"

  /** The outcome of a load: the image source or the exception, whether the
      network was asked, and the file table afterwards. */
  datatype Fetched = Fetched(result: Result<SourceResult, FetchError>, networkCalled: bool, files: Files)

  const FileScheme: string := "file://"

  /** `getResourceType`: empty covers and unknown prefixes are not images;
      `http` is checked before the file prefixes. */
  function ResourceTypeOf(cover: string): (r: Option<ResourceType>)
    ensures r == Some(UrlCover) <==> Text.StartsWith(cover, "http")
    ensures r == Some(FileCover) <==>
      !Text.StartsWith(cover, "http") && (Text.StartsWith(cover, "/") || Text.StartsWith(cover, FileScheme))
  {
    if |cover| == 0 then None
    else if Text.StartsWith(cover, "http") then Some(UrlCover)
    else if Text.StartsWith(cover, "/") || Text.StartsWith(cover, FileScheme) then Some(FileCover)
    else None
  }

  /** The path of a file cover as written: `substringAfter("file://")`,
      which cuts at the first occurrence of the scheme ANYWHERE in the string. */
  function FilePathAsWritten(cover: string): string {
    Text.SubstringAfter(cover, FileScheme)
  }

  /** The path of a file cover as intended: a leading `file://` is removed,
      any other string is already a path. */
  function CoverPath(cover: string): (path: string)
    ensures Text.StartsWith(cover, FileScheme) ==> FileScheme + path == cover
    ensures !Text.StartsWith(cover, FileScheme) ==> path == cover
  {
    if Text.StartsWith(cover, FileScheme) then cover[|FileScheme|..] else cover
  }

  /** The two agree on every cover except a plain path that contains the
      scheme further in. */
  lemma PathsAgree(cover: string)
    requires Text.StartsWith(cover, FileScheme) || !Text.Contains(cover, FileScheme)
    ensures FilePathAsWritten(cover) == CoverPath(cover)
  {
  }

  /** A plain absolute path holding `file://` inside is cut short by the code as written. */
  lemma PlainPathIsCut()
    ensures ResourceTypeOf("/a/file://b") == Some(FileCover)
    ensures FilePathAsWritten("/a/file://b") == "b"
    ensures CoverPath("/a/file://b") == "/a/file://b"
  {
    var s := "/a/file://b";
    assert FileScheme[0] == 'f';
    assert s[0..7][0] != 'f' && s[1..8][0] != 'f' && s[2..9][0] != 'f';
    assert Text.OccursAt(s, FileScheme, 3);
    assert Text.IndexOf(s, FileScheme, 0) == Some(3);
    assert s[10..] == "b";
  }

  // ---- memory-cache key -------------------------------------------------------

  /** `key(data)`: null means "do not cache in memory". */
  function Key(data: BookCover, files: Files, libraryPath: string): Option<string> {
    match ResourceTypeOf(data.cover)
    case Some(FileCover) =>
      Some(data.cover + "_" + Text.Decimal(LastModified(files, CoverPath(data.cover))))
    case Some(UrlCover) =>
      if data.favorite && (!Exists(files, libraryPath) || LastModified(files, libraryPath) == 0) then None
      else Some(data.cover + "_" + Text.Decimal(LastModified(files, libraryPath)))
    case None => None
  }

  /** The file whose timestamp the key of a classifiable cover carries. */
  function KeyedFile(data: BookCover, libraryPath: string): string {
    if ResourceTypeOf(data.cover) == Some(FileCover) then CoverPath(data.cover) else libraryPath
  }

  /** The key is absent exactly for unclassifiable covers and for favourite
      URL covers without a usable library copy; otherwise it is the cover
      followed by the timestamp of the keyed file. */
  lemma KeyShape(data: BookCover, files: Files, libraryPath: string)
    ensures Key(data, files, libraryPath).None? <==>
      || ResourceTypeOf(data.cover).None?
      || (ResourceTypeOf(data.cover) == Some(UrlCover) && data.favorite
          && (!Exists(files, libraryPath) || LastModified(files, libraryPath) == 0))
    ensures Key(data, files, libraryPath).Some? ==>
      Key(data, files, libraryPath).value
        == data.cover + "_" + Text.Decimal(LastModified(files, KeyedFile(data, libraryPath)))
  {
  }

  /** `cover + "_" + timestamp` determines both parts: the rendered timestamp
      never holds `_`, so the last `_` of the key separates them. */
  lemma {:induction false} KeyStringInjective(c1: string, t1: int, c2: string, t2: int)
    ensures c1 + "_" + Text.Decimal(t1) == c2 + "_" + Text.Decimal(t2) <==> c1 == c2 && t1 == t2
  {
    var a, b := Text.Decimal(t1), Text.Decimal(t2);
    var s1, s2 := c1 + "_" + a, c2 + "_" + b;
    if s1 == s2 {
      if |a| < |b| {
        UnderscoreBeforeTail(c1, a, c2, t2);
      } else if |b| < |a| {
        UnderscoreBeforeTail(c2, b, c1, t1);
      }
      assert |c1| == |c2|;
      assert c1 == s1[..|c1|] && c2 == s2[..|c2|];
      assert a == s1[|c1| + 1..] && b == s2[|c2| + 1..];
      Text.DecimalInjective(t1, t2);
    }
  }

  /** The contradiction behind `KeyStringInjective`: a shorter tail would put
      the separator inside the longer rendered timestamp. */
  lemma UnderscoreBeforeTail(c1: string, a: string, c2: string, b: int)
    requires |a| < |Text.Decimal(b)|
    ensures c1 + "_" + a != c2 + "_" + Text.Decimal(b)
  {
    var d := Text.Decimal(b);
    var s1, s2 := c1 + "_" + a, c2 + "_" + d;
    if s1 == s2 {
      var p := |c1|;
      assert s1[p] == '_';
      Text.DecimalAvoids(b, '_');
      assert false;
    }
  }

  /** Two cacheable covers share a memory-cache key exactly when they are the
      same cover with the same timestamp on their keyed files. */
  lemma KeyInjective(d1: BookCover, f1: Files, lp1: string, d2: BookCover, f2: Files, lp2: string)
    requires Key(d1, f1, lp1).Some? && Key(d2, f2, lp2).Some?
    ensures Key(d1, f1, lp1) == Key(d2, f2, lp2) <==>
      d1.cover == d2.cover && LastModified(f1, KeyedFile(d1, lp1)) == LastModified(f2, KeyedFile(d2, lp2))
  {
    KeyShape(d1, f1, lp1);
    KeyShape(d2, f2, lp2);
    KeyStringInjective(d1.cover, LastModified(f1, KeyedFile(d1, lp1)), d2.cover, LastModified(f2, KeyedFile(d2, lp2)));
  }

  /** For one cover the key changes exactly when the keyed file's timestamp
      does, so a rewritten cover is never served from a stale memory-cache
      entry, and an untouched one keeps hitting it. */
  lemma KeyTracksTimestamp(data: BookCover, before: Files, after: Files, libraryPath: string)
    requires Key(data, before, libraryPath).Some? && Key(data, after, libraryPath).Some?
    ensures Key(data, before, libraryPath) == Key(data, after, libraryPath) <==>
      LastModified(before, KeyedFile(data, libraryPath)) == LastModified(after, KeyedFile(data, libraryPath))
  {
    KeyInjective(data, before, libraryPath, data, after, libraryPath);
  }

  // ---- loading -----------------------------------------------------------------

  /** `getFileLoader(file)`: opening a missing file throws. */
  function FileLoader(files: Files, path: string): Result<SourceResult, FetchError> {
    if Exists(files, path) then Success(SourceResult(FileSource(path), "image/*", DiskSource))
    else Failure(FileNotFound(path))
  }

  /** `getUrlLoader`. `response` is what `call.execute()` would return (None:
      it throws); `now` is the clock. A favourite cover is written to the
      library file through a temporary `.tmp` file, or re-stamped when the
      saved copy already has the advertised size. */
  function UrlLoader(data: BookCover, files: Files, libraryPath: string, response: Option<Response>, now: int): Fetched {
    if Exists(files, libraryPath) && LastModified(files, libraryPath) != 0 then
      Fetched(FileLoader(files, libraryPath), false, files)
    else if response.None? then
      Fetched(Failure(CallFailed), true, files)
    else if response.value.body.None? then
      Fetched(Failure(NullBody), true, files)
    else
      var body := response.value.body.value;
      if data.favorite && (!Exists(files, libraryPath) || Length(files, libraryPath) != body.contentLength) then
        // save to the temporary file, rename it over the cover, delete what is left
        var saved := (files - {libraryPath + ".tmp"})[libraryPath := FileInfo(now, body.size)];
        Fetched(FileLoader(saved, libraryPath), true, saved)
      else if data.favorite && Exists(files, libraryPath) && Length(files, libraryPath) == body.contentLength then
        var touched := files[libraryPath := FileInfo(now, Length(files, libraryPath))];
        Fetched(FileLoader(touched, libraryPath), true, touched)
      else
        Fetched(Success(SourceResult(BodySource, "image/*",
                                     if response.value.fromCache then DiskSource else NetworkSource)),
                true, files)
  }

  /** `fetch`: dispatch on the cover's type. */
  function Fetch(data: BookCover, files: Files, libraryPath: string, response: Option<Response>, now: int): (r: Fetched)
    ensures r.result == Failure(NotValidImage) <==> ResourceTypeOf(data.cover).None?
    ensures ResourceTypeOf(data.cover) == Some(FileCover) ==>
      !r.networkCalled && r.files == files && r.result == FileLoader(files, CoverPath(data.cover))
  {
    match ResourceTypeOf(data.cover)
    case Some(FileCover) => Fetched(FileLoader(files, CoverPath(data.cover)), false, files)
    case Some(UrlCover) => UrlLoader(data, files, libraryPath, response, now)
    case None => Fetched(Failure(NotValidImage), false, files)
  }

  // ---- properties of the URL loader --------------------------------------------

  /** A usable library copy is served from disk and the network is not asked. */
  lemma SavedCopyNeedsNoNetwork(data: BookCover, files: Files, libraryPath: string, response: Option<Response>, now: int)
    requires Exists(files, libraryPath) && LastModified(files, libraryPath) != 0
    ensures !UrlLoader(data, files, libraryPath, response, now).networkCalled
    ensures UrlLoader(data, files, libraryPath, response, now).files == files
    ensures UrlLoader(data, files, libraryPath, response, now).result
      == Success(SourceResult(FileSource(libraryPath), "image/*", DiskSource))
  {
  }

  /** The network is asked exactly when there is no usable library copy. */
  lemma NetworkOnlyWithoutCopy(data: BookCover, files: Files, libraryPath: string, response: Option<Response>, now: int)
    ensures UrlLoader(data, files, libraryPath, response, now).networkCalled
      <==> !(Exists(files, libraryPath) && LastModified(files, libraryPath) != 0)
  {
  }

  /** For a favourite the two save branches cover every response with a body:
      the result is always the library file, stamped with `now`. */
  lemma FavouriteAlwaysFromLibraryFile(data: BookCover, files: Files, libraryPath: string, response: Response, now: int)
    requires data.favorite && response.body.Some?
    ensures UrlLoader(data, files, libraryPath, Some(response), now).result
      == Success(SourceResult(FileSource(libraryPath), "image/*", DiskSource))
    ensures Exists(UrlLoader(data, files, libraryPath, Some(response), now).files, libraryPath)
    ensures !(Exists(files, libraryPath) && LastModified(files, libraryPath) != 0) ==>
      LastModified(UrlLoader(data, files, libraryPath, Some(response), now).files, libraryPath) == now
  {
  }

  /** A non-favourite cover without a library copy is streamed from the
      response body; it comes from DISK exactly when the HTTP cache answered,
      and nothing is written. */
  lemma OthersStreamTheBody(data: BookCover, files: Files, libraryPath: string, response: Response, now: int)
    requires !data.favorite && response.body.Some?
    requires !(Exists(files, libraryPath) && LastModified(files, libraryPath) != 0)
    ensures UrlLoader(data, files, libraryPath, Some(response), now).files == files
    ensures UrlLoader(data, files, libraryPath, Some(response), now).result
      == Success(SourceResult(BodySource, "image/*", if response.fromCache then DiskSource else NetworkSource))
  {
  }

  /** Only the library file and its temporary file are ever touched. */
  lemma UrlLoaderFrame(data: BookCover, files: Files, libraryPath: string, response: Option<Response>, now: int, p: string)
    requires p != libraryPath && p != libraryPath + ".tmp"
    ensures p in UrlLoader(data, files, libraryPath, response, now).files <==> p in files
    ensures p in files ==> UrlLoader(data, files, libraryPath, response, now).files[p] == files[p]
  {
  }

  /** Once a favourite cover has been fetched (at a nonzero time), the next
      fetch is served from disk without the network, and its memory-cache key
      carries the save time. */
  lemma SecondFetchFromDisk(data: BookCover, files: Files, libraryPath: string, response: Response,
                            now: int, next: Option<Response>, later: int)
    requires ResourceTypeOf(data.cover) == Some(UrlCover)
    requires data.favorite && response.body.Some? && now != 0
    requires !(Exists(files, libraryPath) && LastModified(files, libraryPath) != 0)
    ensures var first := Fetch(data, files, libraryPath, Some(response), now);
      && !Fetch(data, first.files, libraryPath, next, later).networkCalled
      && Fetch(data, first.files, libraryPath, next, later).result == first.result
      && Key(data, first.files, libraryPath) == Some(data.cover + "_" + Text.Decimal(now))
  {
    FavouriteAlwaysFromLibraryFile(data, files, libraryPath, response, now);
  }
}

=== FILE: entities.dfy ===
/** The persisted Book and Chapter records of the reader (the
    `org.ireader` entities), reduced to the fields the modelled logic reads or
    writes. Timestamps are epoch milliseconds as plain integers. */
module Entities {

  datatype Book = Book(
    id: int,
    title: string,
    favorite: bool,
    /** time of the last remote refresh; below 1 means never refreshed */
    lastUpdate: int
  )

  datatype Chapter = Chapter(
    id: int,
    bookId: int,
    title: string,
    read: bool,
    bookmark: bool,
    /** the downloaded pages of the chapter; empty when not downloaded */
    content: seq<string>,
    inLibrary: bool,
    dateFetch: int
  )
}

=== FILE: filename.dfy ===
/** The file-name rule the book detail screen applies to a book title before
    proposing it as the name of an exported EPUB file. */
module Filename {

  /** The characters a file name may not contain. */
  const Reserved: string := "|\\?*<\":>+[]/'"

  predicate HasReserved(s: string) {
    exists i :: 0 <= i < |s| && s[i] in Reserved
  }

  /** `replace(c, ' ')`: every occurrence of `c` becomes a space. */
  function ReplaceChar(s: string, c: char): (r: string)
    ensures |r| == |s|
  {
    seq(|s|, i requires 0 <= i < |s| => if s[i] == c then ' ' else s[i])
  }

  /** The loop over the reserved characters, one `replace` per character, in order. */
  function ReplaceEach(s: string, cs: string): string
    decreases |cs|
  {
    if |cs| == 0 then s else ReplaceEach(ReplaceChar(s, cs[0]), cs[1..])
  }

  /** Reference definition: each reserved character becomes a space, every
      other character stays where it is. */
  function Blank(s: string): (r: string)
    ensures |r| == |s|
    ensures forall i :: 0 <= i < |s| ==> r[i] == if s[i] in Reserved then ' ' else s[i]
  {
    if |s| == 0 then [] else [if s[0] in Reserved then ' ' else s[0]] + Blank(s[1..])
  }

  /** Kotlin's `replace("  ", " ")`: scanning left to right, each
      non-overlapping pair of spaces becomes one space. */
  function CollapsePairs(s: string): string
    decreases |s|
  {
    if |s| >= 2 && s[0] == ' ' && s[1] == ' ' then " " + CollapsePairs(s[2..])
    else if |s| == 0 then ""
    else [s[0]] + CollapsePairs(s[1..])
  }

  function SanitizeFilename(name: string): string {
    CollapsePairs(ReplaceEach(name, Reserved))
  }

  // ---- reference views used by the properties ------------------------------

  /** The characters that carry the name: neither reserved nor a space, in order. */
  function Significant(s: string): string {
    if |s| == 0 then []
    else (if s[0] == ' ' || s[0] in Reserved then [] else [s[0]]) + Significant(s[1..])
  }

  predicate HasDoubleSpace(s: string) {
    exists i :: 0 <= i < |s| - 1 && s[i] == ' ' && s[i + 1] == ' '
  }

  function Spaces(n: nat): (r: string)
    ensures |r| == n && forall i :: 0 <= i < n ==> r[i] == ' '
  {
    if n == 0 then [] else [' '] + Spaces(n - 1)
  }

  // ---- lemmas ---------------------------------------------------------------

  lemma {:induction false} ReplaceEachPointwise(s: string, cs: string)
    ensures |ReplaceEach(s, cs)| == |s|
    ensures forall i :: 0 <= i < |s| ==>
      ReplaceEach(s, cs)[i] == if s[i] in cs then ' ' else s[i]
    decreases |cs|
  {
    if |cs| > 0 {
      var s' := ReplaceChar(s, cs[0]);
      ReplaceEachPointwise(s', cs[1..]);
      assert cs == [cs[0]] + cs[1..];
    }
  }

  /** The character-by-character loop equals the one-pass reference. */
  lemma ReplaceReservedIsBlank(s: string)
    ensures ReplaceEach(s, Reserved) == Blank(s)
  {
    ReplaceEachPointwise(s, Reserved);
  }

  lemma {:induction false} CollapseShape(s: string)
    ensures |CollapsePairs(s)| <= |s|
    ensures Significant(CollapsePairs(s)) == Significant(s)
    decreases |s|
  {
    if |s| >= 2 && s[0] == ' ' && s[1] == ' ' {
      var rest := CollapsePairs(s[2..]);
      CollapseShape(s[2..]);
      assert (" " + rest)[1..] == rest;
      assert Significant(s[1..]) == Significant(s[2..]) by { assert s[1..][1..] == s[2..]; }
    } else if |s| > 0 {
      var rest := CollapsePairs(s[1..]);
      CollapseShape(s[1..]);
      assert ([s[0]] + rest)[1..] == rest;
    }
  }

  lemma {:induction false} BlankKeepsSignificant(s: string)
    ensures Significant(Blank(s)) == Significant(s)
  {
    if |s| > 0 {
      BlankKeepsSignificant(s[1..]);
      assert Blank(s)[1..] == Blank(s[1..]);
    }
  }

  /** Collapsing spaces introduces no reserved character. */
  lemma {:induction false} CollapseClean(s: string)
    requires !HasReserved(s)
    ensures !HasReserved(CollapsePairs(s))
    decreases |s|
  {
    if |s| >= 2 && s[0] == ' ' && s[1] == ' ' {
      assert !HasReserved(s[2..]) by {
        forall i | 0 <= i < |s[2..]| ensures s[2..][i] !in Reserved {
          assert s[2..][i] == s[i + 2];
        }
      }
      CollapseClean(s[2..]);
      var r := " " + CollapsePairs(s[2..]);
      forall i | 0 <= i < |r| ensures r[i] !in Reserved {
        if i > 0 { assert r[i] == CollapsePairs(s[2..])[i - 1]; }
      }
    } else if |s| > 0 {
      assert !HasReserved(s[1..]) by {
        forall i | 0 <= i < |s[1..]| ensures s[1..][i] !in Reserved {
          assert s[1..][i] == s[i + 1];
        }
      }
      CollapseClean(s[1..]);
      var r := [s[0]] + CollapsePairs(s[1..]);
      forall i | 0 <= i < |r| ensures r[i] !in Reserved {
        if i > 0 { assert r[i] == CollapsePairs(s[1..])[i - 1]; }
      }
    }
  }

  /** The output never holds a reserved character, is never longer than the
      input, and keeps the significant characters of the title in order. */
  lemma SanitizeFilenameSpec(name: string)
    ensures !HasReserved(SanitizeFilename(name))
    ensures |SanitizeFilename(name)| <= |name|
    ensures Significant(SanitizeFilename(name)) == Significant(name)
  {
    SanitizeIsCollapsedBlank(name);
    BlankIsClean(name);
    CollapseClean(Blank(name));
    CollapseShape(Blank(name));
    BlankKeepsSignificant(name);
  }

  lemma SanitizeIsCollapsedBlank(name: string)
    ensures SanitizeFilename(name) == CollapsePairs(Blank(name))
  {
    ReplaceReservedIsBlank(name);
  }

  lemma BlankIsClean(name: string)
    ensures !HasReserved(Blank(name))
  {
  }

  /** One pass halves a run of spaces, rounding up: it does not collapse it to one. */
  lemma {:induction false} CollapseSpaces(n: nat)
    ensures CollapsePairs(Spaces(n)) == Spaces((n + 1) / 2)
    decreases n
  {
    if n >= 2 {
      CollapseSpaces(n - 2);
      assert Spaces(n)[2..] == Spaces(n - 2);
      assert " " + Spaces((n - 1) / 2) == Spaces((n + 1) / 2);
    } else if n == 1 {
      assert Spaces(1)[1..] == [];
    }
  }

  /** Four spaces become two. */
  lemma FourSpacesBecomeTwo()
    ensures SanitizeFilename("    ") == "  "
  {
    assert "    " == Spaces(4);
    assert Blank(Spaces(4)) == Spaces(4);
    ReplaceReservedIsBlank(Spaces(4));
    CollapseSpaces(4);
    assert Spaces(2) == "  ";
  }

  lemma {:induction false} CollapseFixedPoint(s: string)
    ensures CollapsePairs(s) == s <==> !HasDoubleSpace(s)
    decreases |s|
  {
    if |s| >= 2 && s[0] == ' ' && s[1] == ' ' {
      CollapseShape(s[2..]);
      assert |CollapsePairs(s)| < |s|;
    } else if |s| > 0 {
      CollapseFixedPoint(s[1..]);
      if HasDoubleSpace(s) {
        var i :| 0 <= i < |s| - 1 && s[i] == ' ' && s[i + 1] == ' ';
        assert i > 0;
        assert s[1..][i - 1] == ' ' && s[1..][i] == ' ';
      }
      if HasDoubleSpace(s[1..]) {
        var i :| 0 <= i < |s[1..]| - 1 && s[1..][i] == ' ' && s[1..][i + 1] == ' ';
        assert s[i + 1] == ' ' && s[i + 2] == ' ';
      }
      assert ([s[0]] + CollapsePairs(s[1..]) == s) <==> (CollapsePairs(s[1..]) == s[1..]) by {
        if [s[0]] + CollapsePairs(s[1..]) == s {
          assert ([s[0]] + CollapsePairs(s[1..]))[1..] == CollapsePairs(s[1..]);
        }
      }
    }
  }

  /** A name is left untouched exactly when it is already clean: no reserved
      character and no pair of adjacent spaces. */
  lemma SanitizeFixedPoint(name: string)
    ensures SanitizeFilename(name) == name <==> !HasReserved(name) && !HasDoubleSpace(name)
  {
    ReplaceReservedIsBlank(name);
    SanitizeFilenameSpec(name);
    if !HasReserved(name) {
      assert Blank(name) == name;
      CollapseFixedPoint(name);
    }
  }
}

=== FILE: legacy_detail.dfy ===
/** The legacy book detail view model: the screen state it keeps and the
    store writes its handlers perform. Each handler is one step, taking the
    result of the query or remote call it waits for and returning the new
    state, the new store, and the follow-up loads it starts. Coroutines are
    not modelled: a handler's writes take effect in program order. */
module LegacyDetail {
  import opened Wrappers
  import opened LegacyStore

  datatype DetailState = DetailState(
    book: Book,
    inLibrary: bool,
    isExploreMode: bool,
    isLoading: bool,
    isLoaded: bool
  )

  datatype ChapterState = ChapterState(
    chapters: seq<Chapter>,
    lastChapter: Option<Chapter>,
    isLoading: bool,
    loaded: bool
  )

  /** The view model for the book `bookId` together with the store it writes. */
  datatype Vm = Vm(bookId: int, state: DetailState, chapterState: ChapterState, store: Store)

  /** The loads a handler starts. */
  datatype Request =
    | LoadLocalChapters                // getLocalChaptersByBookId
    | LoadLastChapter                  // getLastChapter
    | FetchRemoteDetail(book: Book)    // getRemoteBookDetail
    | FetchRemoteChapters(book: Book)  // getRemoteChapterDetail

  datatype Out = Out(vm: Vm, requests: seq<Request>)

  /** What a query or remote call delivers: `Resource.Success` with nullable
      data, or `Resource.Error` with a message. */
  type Loaded<T> = Result<Option<T>, string>

  predicate RemoteFetchRequested(requests: seq<Request>) {
    exists i :: 0 <= i < |requests| && (requests[i].FetchRemoteDetail? || requests[i].FetchRemoteChapters?)
  }

  // ---- chapter list rewrites ------------------------------------------------

  function WithBookId(chs: seq<Chapter>, bookId: int): (r: seq<Chapter>)
    ensures |r| == |chs|
    ensures forall i :: 0 <= i < |r| ==> r[i] == chs[i].(bookId := bookId)
  {
    seq(|chs|, i requires 0 <= i < |chs| => chs[i].(bookId := bookId))
  }

  function WithBookName(chs: seq<Chapter>, bookId: int, bookName: string): (r: seq<Chapter>)
    ensures |r| == |chs|
    ensures forall i :: 0 <= i < |r| ==> r[i] == chs[i].(bookId := bookId, bookName := bookName)
  {
    seq(|chs|, i requires 0 <= i < |chs| => chs[i].(bookId := bookId, bookName := bookName))
  }

  /** Rewriting a field other than the id keeps the ids and which entry is the last with its id. */
  lemma SameIds(a: seq<Chapter>, b: seq<Chapter>)
    requires |a| == |b| && forall i :: 0 <= i < |a| ==> a[i].id == b[i].id
    ensures Ids(a) == Ids(b)
    ensures forall i :: 0 <= i < |a| ==> (LastWithId(a, i) <==> LastWithId(b, i))
  {
    forall k | k in Ids(a) ensures k in Ids(b) {
      var c :| c in a && c.id == k;
      var i :| 0 <= i < |a| && a[i] == c;
      assert b[i] in b;
    }
    forall k | k in Ids(b) ensures k in Ids(a) {
      var c :| c in b && c.id == k;
      var i :| 0 <= i < |b| && b[i] == c;
      assert a[i] in a;
    }
  }

  /** `insertChaptersToLocal(chs)`: all stored chapters of the book are
      deleted, then the list is inserted with `bookId` overwritten. The book's
      stored chapters are then exactly the ids of the list, no earlier chapter
      of the book survives, and the rows of other books are untouched (unless
      the list reuses their id). */
  function InsertChaptersToLocal(st: Store, bookId: int, chs: seq<Chapter>): (r: Store)
    ensures r.books == st.books
    ensures ChaptersOf(r, bookId) == Ids(chs)
    ensures r.chapters.Keys == Ids(chs) + (st.chapters.Keys - ChaptersOf(st, bookId))
    ensures forall k :: k in st.chapters && st.chapters[k].bookId != bookId && k !in Ids(chs) ==>
      k in r.chapters && r.chapters[k] == st.chapters[k]
    ensures forall i :: 0 <= i < |chs| && LastWithId(chs, i) ==>
      chs[i].id in r.chapters && r.chapters[chs[i].id] == chs[i].(bookId := bookId)
  {
    var cleared := DeleteChaptersOf(st, bookId);
    StampedInsert(cleared.chapters, bookId, chs);
    var r := Store(cleared.books, PutChapters(cleared.chapters, WithBookId(chs, bookId)));
    assert cleared.chapters.Keys == st.chapters.Keys - ChaptersOf(st, bookId);
    forall k | k in r.chapters && k !in Ids(chs) ensures r.chapters[k].bookId != bookId {
      assert k in cleared.chapters;
    }
    assert ChaptersOf(r, bookId) == Ids(chs);
    r
  }

  lemma StampedInsert(m: map<int, Chapter>, bookId: int, chs: seq<Chapter>)
    ensures var r := PutChapters(m, WithBookId(chs, bookId));
      && r.Keys == m.Keys + Ids(chs)
      && (forall k :: k in m && k !in Ids(chs) ==> r[k] == m[k])
      && (forall k :: k in Ids(chs) ==> r[k].bookId == bookId)
      && (forall i :: 0 <= i < |chs| && LastWithId(chs, i) ==> chs[i].id in r && r[chs[i].id] == chs[i].(bookId := bookId))
  {
    var stamped := WithBookId(chs, bookId);
    SameIds(chs, stamped);
    PutChaptersKeys(m, stamped);
    var r := PutChapters(m, stamped);
    forall i | 0 <= i < |chs| && LastWithId(chs, i)
      ensures chs[i].id in r && r[chs[i].id] == chs[i].(bookId := bookId)
    {
      PutChaptersLast(m, stamped, i);
    }
    forall k | k in Ids(chs) ensures r[k].bookId == bookId {
      assert r[k] in stamped;
    }
  }

  /** `updateChaptersEntity(f)`: every chapter on screen is re-inserted with
      `inLibrary = f` and `bookId = bookId`. */
  function UpdateChaptersEntity(vm: Vm, inLibrary: bool): (r: Store)
    ensures r.books == vm.store.books
    ensures r.chapters.Keys == vm.store.chapters.Keys + Ids(vm.chapterState.chapters)
    ensures forall c :: c in vm.chapterState.chapters ==>
      r.chapters[c.id].inLibrary == inLibrary && r.chapters[c.id].bookId == vm.bookId
    ensures forall k :: k in vm.store.chapters && k !in Ids(vm.chapterState.chapters) ==>
      r.chapters[k] == vm.store.chapters[k]
    ensures forall i :: 0 <= i < |vm.chapterState.chapters| && LastWithId(vm.chapterState.chapters, i) ==>
      var c := vm.chapterState.chapters[i];
      c.id in r.chapters && r.chapters[c.id] == c.(inLibrary := inLibrary, bookId := vm.bookId)
  {
    var chs := vm.chapterState.chapters;
    var entities := seq(|chs|, i requires 0 <= i < |chs| => chs[i].(inLibrary := inLibrary, bookId := vm.bookId));
    SameIds(chs, entities);
    PutChaptersKeys(vm.store.chapters, entities);
    var r := vm.store.(chapters := PutChapters(vm.store.chapters, entities));
    forall c | c in chs ensures r.chapters[c.id].inLibrary == inLibrary && r.chapters[c.id].bookId == vm.bookId {
      assert c.id in Ids(chs);
      assert r.chapters[c.id] in entities;
    }
    forall i | 0 <= i < |chs| && LastWithId(chs, i)
      ensures chs[i].id in r.chapters && r.chapters[chs[i].id] == chs[i].(inLibrary := inLibrary, bookId := vm.bookId)
    {
      PutChaptersLast(vm.store.chapters, entities, i);
    }
    r
  }

  // ---- handlers ---------------------------------------------------------------

  /** The collector of `getLocalBookById`. A found book is shown and its
      chapters are loaded; an explore-mode book additionally has the explore
      flag cleared and its remote detail and chapters fetched. */
  function OnLocalBook(vm: Vm, result: Loaded<Book>): (r: Out)
    ensures r.vm.store == vm.store && r.vm.bookId == vm.bookId
    ensures !r.vm.state.isLoading
    ensures RemoteFetchRequested(r.requests) <==>
      result.Success? && result.value.Some? && result.value.value.isExploreMode
    ensures RemoteFetchRequested(r.requests) ==>
      && !r.vm.state.isExploreMode
      && r.requests == [LoadLocalChapters, FetchRemoteDetail(result.value.value), FetchRemoteChapters(result.value.value)]
    ensures result.Success? && result.value.Some? ==>
      && r.vm.state.book == result.value.value
      && r.vm.state.inLibrary == result.value.value.inLibrary
      && |r.requests| > 0 && r.requests[0] == LoadLocalChapters
    ensures !(result.Success? && result.value.Some?) ==> r.requests == [] && r.vm.state.book == vm.state.book
    ensures r.vm.chapterState == vm.chapterState
    ensures result.Success? && result.value.Some? ==>
      var b := result.value.value;
      && r.vm.state == vm.state.(book := b, inLibrary := b.inLibrary, isExploreMode := false,
                                 isLoading := false, isLoaded := true)
      && (!b.isExploreMode ==> r.requests == [LoadLocalChapters])
    ensures result.Success? && result.value.None? ==> r.vm.state == vm.state.(isLoading := false, isLoaded := true)
    ensures result.Failure? ==> r.vm.state == vm.state.(isLoading := false)
  {
    var loading := vm.state.(isLoading := true);
    match result
    case Success(Some(b)) =>
      var shown := loading.(book := b, isLoading := false, isLoaded := true,
                            inLibrary := b.inLibrary, isExploreMode := b.isExploreMode);
      if shown.isExploreMode then
        var reqs := [LoadLocalChapters, FetchRemoteDetail(shown.book), FetchRemoteChapters(shown.book)];
        assert reqs[1].FetchRemoteDetail?;
        Out(vm.(state := shown.(isExploreMode := false)), reqs)
      else
        Out(vm.(state := shown), [LoadLocalChapters])
    case Success(None) =>
      Out(vm.(state := loading.(isLoading := false, isLoaded := true)), [])
    case Failure(_) =>
      Out(vm.(state := loading.(isLoading := false)), [])
  }

  /** The collector of `getLocalChaptersByBookId`. A loaded list is shown and
      the last read chapter is queried; the book row is rewritten only when its
      `totalChapters` differs from the number of chapters loaded, and then with
      that number. A failed query falls back to the remote chapter list. */
  function OnLocalChapters(vm: Vm, result: Loaded<seq<Chapter>>): (r: Out)
    ensures r.vm.state == vm.state && r.vm.bookId == vm.bookId
    ensures r.vm.store.chapters == vm.store.chapters
    ensures result.Failure? <==> r.requests == [FetchRemoteChapters(vm.state.book)]
    ensures result.Success? && result.value.Some? ==>
      && r.vm.chapterState.chapters == result.value.value
      && r.requests == [LoadLastChapter]
    ensures result.Success? && result.value.Some? && vm.state.book.totalChapters != |result.value.value| ==>
      && r.vm.store.books.Keys == vm.store.books.Keys + {vm.state.book.id}
      && r.vm.store.books[vm.state.book.id] == vm.state.book.(totalChapters := |result.value.value|)
      && forall k :: k in vm.store.books && k != vm.state.book.id ==> k in r.vm.store.books && r.vm.store.books[k] == vm.store.books[k]
    ensures !(result.Success? && result.value.Some? && vm.state.book.totalChapters != |result.value.value|) ==>
      r.vm.store == vm.store
    ensures result.Success? && result.value.Some? ==>
      r.vm.chapterState == vm.chapterState.(chapters := result.value.value, isLoading := false, loaded := true)
    ensures result.Success? && result.value.None? ==>
      r.requests == [] && r.vm.chapterState == vm.chapterState.(isLoading := false, loaded := true)
    ensures result.Failure? ==> r.vm.chapterState == vm.chapterState.(isLoading := true)
  {
    var loading := vm.chapterState.(isLoading := true);
    match result
    case Success(Some(chs)) =>
      var shown := loading.(chapters := chs, isLoading := false, loaded := true);
      var book := vm.state.book;
      var store := if book.totalChapters != |chs| then InsertBook(vm.store, book.(totalChapters := |chs|)) else vm.store;
      Out(vm.(chapterState := shown, store := store), [LoadLastChapter])
    case Success(None) =>
      Out(vm.(chapterState := loading.(isLoading := false, loaded := true)), [])
    case Failure(_) =>
      Out(vm.(chapterState := loading), [FetchRemoteChapters(vm.state.book)])
  }

  /** The collector of `getRemoteBookDetail`. The remote book replaces the
      shown one with the local id and the CURRENT explore flag, and is stored
      with `dataAdded = now`; `now` stands for the wall clock. */
  function OnRemoteDetail(vm: Vm, result: Loaded<Book>, now: int): (r: Out)
    ensures r.requests == [] && r.vm.bookId == vm.bookId
    ensures r.vm.store.chapters == vm.store.chapters
    ensures r.vm.state.inLibrary == vm.state.inLibrary && r.vm.state.isExploreMode == vm.state.isExploreMode
    ensures result.Success? && result.value.Some? ==> r.vm.store.books.Keys == vm.store.books.Keys + {vm.bookId}
    ensures result.Success? && result.value.Some? ==>
      var d, stored := result.value.value, r.vm.store.books[vm.bookId];
      && stored.id == vm.bookId
      && stored.isExploreMode == vm.state.isExploreMode
      && stored.dataAdded == now
      && stored.bookName == d.bookName && stored.inLibrary == d.inLibrary && stored.totalChapters == d.totalChapters
      && r.vm.state.book == stored.(dataAdded := d.dataAdded)
      && forall k :: k in vm.store.books && k != vm.bookId ==> k in r.vm.store.books && r.vm.store.books[k] == vm.store.books[k]
    ensures !(result.Success? && result.value.Some?) ==> r.vm.store == vm.store && r.vm.state.book == vm.state.book
    ensures result.Success? && result.value.None? ==> r.vm.state == vm.state.(isLoading := true, isLoaded := false)
    ensures result.Success? && result.value.Some? ==> !r.vm.state.isLoading && r.vm.state.isLoaded
    ensures result.Failure? ==> r.vm.state == vm.state.(isLoading := false, isLoaded := false)
    ensures r.vm.chapterState == vm.chapterState
  {
    var loading := vm.state.(isLoading := true, isLoaded := false);
    match result
    case Success(Some(d)) =>
      var b := d.(id := vm.bookId, isExploreMode := vm.state.isExploreMode);
      Out(vm.(state := loading.(book := b, isLoading := false, isLoaded := true),
              store := InsertBook(vm.store, b.(dataAdded := now))), [])
    case Success(None) =>
      Out(vm.(state := loading), [])
    case Failure(_) =>
      Out(vm.(state := loading.(isLoading := false)), [])
  }

  /** The collector of `getRemoteChapterDetail`. The remote list, stamped with
      the book id and name, is shown; the store gets `dedup(shown, stamped)`
      after ALL stored chapters of the book were deleted. `dedup` stands for
      `removeSameItemsFromList` keyed by title. */
  function OnRemoteChapters(vm: Vm, result: Loaded<seq<Chapter>>,
                            dedup: (seq<Chapter>, seq<Chapter>) -> seq<Chapter>): (r: Out)
    ensures r.requests == [] && r.vm.bookId == vm.bookId && r.vm.state == vm.state
    ensures r.vm.store.books == vm.store.books
    ensures result.Success? && result.value.Some? ==>
      var stamped := WithBookName(result.value.value, vm.bookId, vm.state.book.bookName);
      var unique := dedup(vm.chapterState.chapters, stamped);
      && r.vm.chapterState.chapters == stamped
      && ChaptersOf(r.vm.store, vm.bookId) == Ids(unique)
      && (forall k :: k in ChaptersOf(vm.store, vm.bookId) && k !in Ids(unique) ==> k !in r.vm.store.chapters)
      && (forall i :: 0 <= i < |unique| && LastWithId(unique, i) ==>
            unique[i].id in r.vm.store.chapters && r.vm.store.chapters[unique[i].id] == unique[i].(bookId := vm.bookId))
      && r.vm.store.chapters.Keys == Ids(unique) + (vm.store.chapters.Keys - ChaptersOf(vm.store, vm.bookId))
      && (forall k :: k in vm.store.chapters && vm.store.chapters[k].bookId != vm.bookId && k !in Ids(unique) ==>
            r.vm.store.chapters[k] == vm.store.chapters[k])
    ensures !(result.Success? && result.value.Some?) ==> r.vm.store == vm.store
    ensures !(result.Success? && result.value.Some?) ==> r.vm.chapterState.chapters == vm.chapterState.chapters
    ensures result.Success? && result.value.Some? ==>
      r.vm.chapterState == vm.chapterState.(chapters := WithBookName(result.value.value, vm.bookId, vm.state.book.bookName),
                                            isLoading := false)
    ensures result.Success? && result.value.None? ==> r.vm.chapterState == vm.chapterState.(isLoading := true)
    ensures result.Failure? ==> r.vm.chapterState == vm.chapterState.(isLoading := false)
  {
    var loading := vm.chapterState.(isLoading := true);
    match result
    case Success(Some(chs)) =>
      var stamped := WithBookName(chs, vm.bookId, vm.state.book.bookName);
      var unique := dedup(vm.chapterState.chapters, stamped);
      var cleared := DeleteChaptersOf(vm.store, vm.bookId);
      var store := InsertChaptersToLocal(cleared, vm.bookId, unique);
      Out(vm.(chapterState := loading.(chapters := stamped, isLoading := false), store := store), [])
    case Success(None) =>
      Out(vm.(chapterState := loading), [])
    case Failure(_) =>
      Out(vm.(chapterState := loading.(isLoading := false)), [])
  }

  /** `toggleInLibrary(add, book)`: the screen flag becomes `add`, a book row
      is written, and every chapter on screen is re-inserted with `inLibrary = add`.
      Removing writes `book ?: shown` with the local id and `inLibrary = false`;
      adding without a book writes the shown book with the local id,
      `inLibrary = true` and `dataAdded = now`; adding WITH a book writes that
      book unchanged. */
  function ToggleInLibrary(vm: Vm, add: bool, book: Option<Book>, now: int): (r: Vm)
    ensures r.state == vm.state.(inLibrary := add)
    ensures r.chapterState == vm.chapterState && r.bookId == vm.bookId
    ensures var rowId := if add && book.Some? then book.value.id else vm.bookId;
      && r.store.books.Keys == vm.store.books.Keys + {rowId}
      && forall k :: k in vm.store.books && k != rowId ==> r.store.books[k] == vm.store.books[k]
    ensures book.None? || !add ==>
      var src := if book.Some? then book.value else vm.state.book;
      && vm.bookId in r.store.books
      && r.store.books[vm.bookId] == src.(id := vm.bookId, inLibrary := add,
                                          dataAdded := if add then now else src.dataAdded)
    ensures book.Some? && add ==> book.value.id in r.store.books && r.store.books[book.value.id] == book.value
    ensures forall c :: c in vm.chapterState.chapters ==>
      c.id in r.store.chapters && r.store.chapters[c.id].inLibrary == add && r.store.chapters[c.id].bookId == vm.bookId
    ensures forall i :: 0 <= i < |vm.chapterState.chapters| && LastWithId(vm.chapterState.chapters, i) ==>
      var c := vm.chapterState.chapters[i];
      c.id in r.store.chapters && r.store.chapters[c.id] == c.(inLibrary := add, bookId := vm.bookId)
    ensures r.store.chapters.Keys == vm.store.chapters.Keys + Ids(vm.chapterState.chapters)
    ensures forall k :: k in vm.store.chapters && k !in Ids(vm.chapterState.chapters) ==>
      r.store.chapters[k] == vm.store.chapters[k]
  {
    var flagged := vm.(state := vm.state.(inLibrary := add));
    var row :=
      if add then (if book.Some? then book.value
                   else flagged.state.book.(id := vm.bookId, inLibrary := true, dataAdded := now))
      else (if book.Some? then book.value else flagged.state.book).(id := vm.bookId, inLibrary := false);
    var written := flagged.(store := InsertBook(flagged.store, row));
    written.(store := UpdateChaptersEntity(written, add))
  }

  /** `updateInLibrary(isIn)`: only the screen flag changes. */
  function UpdateInLibrary(vm: Vm, isIn: bool): (r: Vm)
    ensures r.state.inLibrary == isIn
    ensures r.store == vm.store && r.chapterState == vm.chapterState && r.bookId == vm.bookId
    ensures r.state.book == vm.state.book && r.state.isExploreMode == vm.state.isExploreMode
    ensures r.state.isLoading == vm.state.isLoading && r.state.isLoaded == vm.state.isLoaded
  {
    vm.(state := vm.state.(inLibrary := isIn))
  }

  /** `deleteChapterDetails()`. */
  function DeleteChapterDetails(vm: Vm): (r: Store)
    ensures ChaptersOf(r, vm.bookId) == {} && r.books == vm.store.books
    ensures r.chapters.Keys == vm.store.chapters.Keys - ChaptersOf(vm.store, vm.bookId)
    ensures forall k :: k in vm.store.chapters && k !in ChaptersOf(vm.store, vm.bookId) ==>
      k in r.chapters && r.chapters[k] == vm.store.chapters[k]
  {
    DeleteChaptersOf(vm.store, vm.bookId)
  }

  /** `readLastReadBook()`: the last chapter marked `lastRead`, else the first
      chapter. An empty list makes `first()` throw: `None`. */
  method ReadLastReadBook(chapters: seq<Chapter>) returns (r: Option<Chapter>)
    ensures |chapters| == 0 <==> r.None?
    ensures (exists j :: 0 <= j < |chapters| && chapters[j].lastRead) ==>
      exists i :: 0 <= i < |chapters| && r == Some(chapters[i]) && chapters[i].lastRead
        && forall j :: i < j < |chapters| ==> !chapters[j].lastRead
    ensures |chapters| > 0 && (forall j :: 0 <= j < |chapters| ==> !chapters[j].lastRead) ==>
      r == Some(chapters[0])
  {
    var i := |chapters|;
    while i > 0
      invariant 0 <= i <= |chapters|
      invariant forall j :: i <= j < |chapters| ==> !chapters[j].lastRead
    {
      i := i - 1;
      if chapters[i].lastRead {
        return Some(chapters[i]);
      }
    }
    if |chapters| == 0 {
      return None;
    }
    return Some(chapters[0]);
  }

  // ---- properties across handlers ---------------------------------------------

  /** Opening an explore-mode book and then receiving its remote detail stores
      the book with the explore flag OFF: the flag is cleared before the fetch
      and the stored row copies the current flag. */
  lemma ExploreBookStoredWithoutFlag(vm: Vm, b: Book, d: Book, now: int)
    requires b.isExploreMode
    ensures var first := OnLocalBook(vm, Success(Some(b)));
      && FetchRemoteDetail(b) in first.requests
      && var after := OnRemoteDetail(first.vm, Success(Some(d)), now);
      && vm.bookId in after.vm.store.books
      && !after.vm.store.books[vm.bookId].isExploreMode
      && after.vm.store.books[vm.bookId].dataAdded == now
  {
    var first := OnLocalBook(vm, Success(Some(b)));
    assert first.requests[1] == FetchRemoteDetail(b);
  }

  /** The count reconciliation is idempotent: a second identical emission
      leaves the store as the first one left it. */
  lemma ReconcileIdempotent(vm: Vm, chs: seq<Chapter>)
    ensures var once := OnLocalChapters(vm, Success(Some(chs)));
      OnLocalChapters(once.vm, Success(Some(chs))).vm.store == once.vm.store
  {
  }

  /** Removing and re-adding without a book leaves the screen as adding alone
      would: the same screen state, the same book table, and the book row
      stored as in the library. */
  lemma RemoveThenAdd(vm: Vm, t1: int, t2: int)
    ensures var r, once := ToggleInLibrary(ToggleInLibrary(vm, false, None, t1), true, None, t2),
                           ToggleInLibrary(vm, true, None, t2);
      && r.state == once.state && r.state.inLibrary
      && r.store.books == once.store.books
      && vm.bookId in r.store.books
      && r.store.books[vm.bookId] == vm.state.book.(id := vm.bookId, inLibrary := true, dataAdded := t2)
  {
    RemoveThenAddBooks(vm, ToggleInLibrary(vm, false, None, t1), t2);
  }

  /** ... and every chapter on screen is stored as adding alone stores it. */
  lemma RemoveThenAddChapter(vm: Vm, t1: int, t2: int, c: Chapter)
    requires c in vm.chapterState.chapters
    ensures var r, once := ToggleInLibrary(ToggleInLibrary(vm, false, None, t1), true, None, t2),
                           ToggleInLibrary(vm, true, None, t2);
      && c.id in r.store.chapters && c.id in once.store.chapters
      && r.store.chapters[c.id] == once.store.chapters[c.id] && r.store.chapters[c.id].inLibrary
  {
    var chs := vm.chapterState.chapters;
    assert c.id in Ids(chs);
    var i := LastIndexWithId(chs, c.id);
  }

  lemma RemoveThenAddBooks(vm: Vm, off: Vm, t2: int)
    requires off.state.book == vm.state.book && off.bookId == vm.bookId
    requires off.store.books.Keys == vm.store.books.Keys + {vm.bookId}
    requires forall k :: k in vm.store.books && k != vm.bookId ==> off.store.books[k] == vm.store.books[k]
    ensures ToggleInLibrary(off, true, None, t2).store.books == ToggleInLibrary(vm, true, None, t2).store.books
  {
    var a, b := ToggleInLibrary(off, true, None, t2).store.books, ToggleInLibrary(vm, true, None, t2).store.books;
    assert a.Keys == b.Keys;
    forall k | k in a ensures a[k] == b[k] {
      if k != vm.bookId {
        assert k in vm.store.books;
      }
    }
  }

  /** The index of the last chapter of the list with id `id`. */
  function LastIndexWithId(chs: seq<Chapter>, id: int): (i: int)
    requires id in Ids(chs)
    ensures 0 <= i < |chs| && chs[i].id == id && LastWithId(chs, i)
    decreases |chs|
  {
    if chs[|chs| - 1].id == id then |chs| - 1
    else
      assert id in Ids(chs[..|chs| - 1]) by {
        var c :| c in chs && c.id == id;
        var j :| 0 <= j < |chs| && chs[j] == c;
        assert chs[..|chs| - 1][j] == c;
      }
      LastIndexWithId(chs[..|chs| - 1], id)
  }
}

=== FILE: legacy_store.dfy ===
/** The local database as the legacy detail screen sees it: a book table and
    a chapter table, both keyed by id. Every insert is an insert-or-replace
    on the primary key; ids are taken as given (id autogeneration is not part
    of this model). */
module LegacyStore {

  datatype Book = Book(
    id: int,
    bookName: string,
    inLibrary: bool,
    isExploreMode: bool,
    totalChapters: int,
    dataAdded: int
  )

  datatype Chapter = Chapter(
    id: int,
    bookId: int,
    bookName: string,
    title: string,
    inLibrary: bool,
    lastRead: bool
  )

  datatype Store = Store(books: map<int, Book>, chapters: map<int, Chapter>)

  /** The ids a chapter list carries. */
  function Ids(chs: seq<Chapter>): set<int> {
    set c | c in chs :: c.id
  }

  /** `chs[i]` is the last chapter of the list with its id, so it is the one
      an in-order insert leaves behind. */
  predicate LastWithId(chs: seq<Chapter>, i: int)
    requires 0 <= i < |chs|
  {
    forall j :: i < j < |chs| ==> chs[j].id != chs[i].id
  }

  /** The ids of the stored chapters that belong to book `bookId`. */
  function ChaptersOf(st: Store, bookId: int): set<int> {
    set k | k in st.chapters && st.chapters[k].bookId == bookId
  }

  /** `insertBook`: the row with the book's id is replaced or added. */
  function InsertBook(st: Store, b: Book): (r: Store)
    ensures r.chapters == st.chapters
    ensures r.books.Keys == st.books.Keys + {b.id}
    ensures r.books[b.id] == b
    ensures forall k :: k in st.books && k != b.id ==> r.books[k] == st.books[k]
  {
    st.(books := st.books[b.id := b])
  }

  /** `deleteChaptersByBookId`. */
  function DeleteChaptersOf(st: Store, bookId: int): (r: Store)
    ensures r.books == st.books
    ensures ChaptersOf(r, bookId) == {}
    ensures r.chapters.Keys == st.chapters.Keys - ChaptersOf(st, bookId)
    ensures forall k :: k in r.chapters <==> k in st.chapters && st.chapters[k].bookId != bookId
    ensures forall k :: k in r.chapters ==> r.chapters[k] == st.chapters[k]
  {
    st.(chapters := map k | k in st.chapters && st.chapters[k].bookId != bookId :: st.chapters[k])
  }

  /** `insertChapters`: the list is inserted in order, each row replacing the
      stored row with its id. */
  function PutChapters(m: map<int, Chapter>, chs: seq<Chapter>): map<int, Chapter>
    decreases |chs|
  {
    if |chs| == 0 then m else PutChapters(m[chs[0].id := chs[0]], chs[1..])
  }

  lemma IdsCons(chs: seq<Chapter>)
    requires |chs| > 0
    ensures Ids(chs) == {chs[0].id} + Ids(chs[1..])
  {
    forall k | k in Ids(chs) ensures k in {chs[0].id} + Ids(chs[1..]) {
      var c :| c in chs && c.id == k;
      if c != chs[0] {
        var i :| 0 <= i < |chs| && chs[i] == c;
        assert chs[1..][i - 1] == c;
      }
    }
  }

  /** Every id of the list ends up stored, holding a chapter of the list with
      that id; other rows are untouched. */
  lemma {:induction false} PutChaptersKeys(m: map<int, Chapter>, chs: seq<Chapter>)
    ensures PutChapters(m, chs).Keys == m.Keys + Ids(chs)
    ensures forall k :: k in m && k !in Ids(chs) ==> PutChapters(m, chs)[k] == m[k]
    ensures forall k :: k in Ids(chs) ==> PutChapters(m, chs)[k] in chs && PutChapters(m, chs)[k].id == k
    decreases |chs|
  {
    if |chs| > 0 {
      IdsCons(chs);
      PutChaptersKeys(m[chs[0].id := chs[0]], chs[1..]);
      forall k | k in Ids(chs) ensures PutChapters(m, chs)[k] in chs {
        if k in Ids(chs[1..]) {
          assert PutChapters(m, chs)[k] in chs[1..];
        }
      }
    }
  }

  /** The row left behind for an id is the LAST chapter of the list with it. */
  lemma {:induction false} PutChaptersLast(m: map<int, Chapter>, chs: seq<Chapter>, i: int)
    requires 0 <= i < |chs| && LastWithId(chs, i)
    ensures chs[i].id in PutChapters(m, chs) && PutChapters(m, chs)[chs[i].id] == chs[i]
    decreases |chs|
  {
    IdsCons(chs);
    PutChaptersKeys(m[chs[0].id := chs[0]], chs[1..]);
    if i == 0 {
      assert chs[0].id !in Ids(chs[1..]);
    } else {
      assert LastWithId(chs[1..], i - 1);
      PutChaptersLast(m[chs[0].id := chs[0]], chs[1..], i - 1);
    }
  }
}

=== FILE: text.dfy ===
/** The Kotlin string operations the modelled code relies on, on `string` as
    `seq<char>`: `isBlank`, `joinToString("")`, `startsWith`, `substringAfter`
    and the decimal rendering of a `Long` in a string template. */
module Text {
  import opened Wrappers

  /** Kotlin's `Char.isWhitespace()` on the JVM: a Java whitespace character
      or a Unicode space separator. */
  predicate IsWhitespace(c: char) {
    || c == '\t' || c == '\n' || c == '\U{000B}' || c == '\U{000C}' || c == '\r'
    || ('\U{001C}' <= c <= '\U{001F}')
    || c == ' ' || c == '\U{00A0}' || c == '\U{1680}'
    || ('\U{2000}' <= c <= '\U{200A}')
    || c == '\U{2028}' || c == '\U{2029}' || c == '\U{202F}' || c == '\U{205F}' || c == '\U{3000}'
  }

  /** `CharSequence.isBlank()`: empty or whitespace only. */
  predicate IsBlank(s: string) {
    forall i :: 0 <= i < |s| ==> IsWhitespace(s[i])
  }

  /** `joinToString("")` on a list of strings. */
  function Join(parts: seq<string>): string {
    if |parts| == 0 then "" else parts[0] + Join(parts[1..])
  }

  lemma ConcatIsBlank(a: string, b: string)
    ensures IsBlank(a + b) <==> IsBlank(a) && IsBlank(b)
  {
    if IsBlank(a + b) {
      forall i | 0 <= i < |a| ensures IsWhitespace(a[i]) {
        assert (a + b)[i] == a[i];
      }
      forall i | 0 <= i < |b| ensures IsWhitespace(b[i]) {
        assert (a + b)[|a| + i] == b[i];
      }
    }
  }

  /** The joined content of a chapter is blank exactly when every page is. */
  lemma {:induction false} JoinIsBlank(parts: seq<string>)
    ensures IsBlank(Join(parts)) <==> forall i :: 0 <= i < |parts| ==> IsBlank(parts[i])
  {
    if |parts| > 0 {
      JoinIsBlank(parts[1..]);
      ConcatIsBlank(parts[0], Join(parts[1..]));
      assert forall i :: 1 <= i < |parts| ==> parts[i] == parts[1..][i - 1];
    }
  }

  predicate StartsWith(s: string, prefix: string) {
    |prefix| <= |s| && s[..|prefix|] == prefix
  }

  /** `d` occurs in `s` starting at index `k`. */
  predicate OccursAt(s: string, d: string, k: int) {
    0 <= k && k + |d| <= |s| && s[k..k + |d|] == d
  }

  predicate Contains(s: string, d: string) {
    exists k :: 0 <= k <= |s| && OccursAt(s, d, k)
  }

  /** `indexOf(d, from)`: the first occurrence of `d` at or after `from`. */
  function IndexOf(s: string, d: string, from: nat): (r: Option<nat>)
    decreases |s| - from
    ensures r.Some? ==> from <= r.value && OccursAt(s, d, r.value)
    ensures r.Some? ==> forall k :: from <= k < r.value ==> !OccursAt(s, d, k)
    ensures r.None? ==> forall k :: from <= k ==> !OccursAt(s, d, k)
  {
    if from + |d| > |s| then None
    else if s[from..from + |d|] == d then Some(from)
    else IndexOf(s, d, from + 1)
  }

  /** Kotlin's `substringAfter(d)`: the part after the FIRST occurrence of `d`
      anywhere in `s`, or all of `s` when `d` does not occur. */
  function SubstringAfter(s: string, d: string): (r: string)
    ensures !Contains(s, d) ==> r == s
    ensures StartsWith(s, d) ==> r == s[|d|..]
    ensures Contains(s, d) ==>
      exists k :: 0 <= k <= |s| - |d| && OccursAt(s, d, k) && r == s[k + |d|..]
        && forall j :: 0 <= j < k ==> !OccursAt(s, d, j)
  {
    match IndexOf(s, d, 0)
    case Some(i) => s[i + |d|..]
    case None => s
  }

  // ---- decimal rendering of integers --------------------------------------

  predicate IsDigit(c: char) {
    '0' <= c <= '9'
  }

  predicate AllDigits(s: string) {
    forall i :: 0 <= i < |s| ==> IsDigit(s[i])
  }

  function DigitChar(d: nat): (c: char)
    requires d < 10
    ensures IsDigit(c)
  {
    ('0' as int + d) as char
  }

  function DigitValue(c: char): nat
    requires IsDigit(c)
  {
    c as int - '0' as int
  }

  /** The decimal digits of `n`, most significant first, without leading zeros. */
  function NatDigits(n: nat): (r: string)
    ensures |r| > 0 && AllDigits(r)
    decreases n
  {
    if n < 10 then [DigitChar(n)] else NatDigits(n / 10) + [DigitChar(n % 10)]
  }

  /** `Long.toString()` as used by a string template: an optional minus sign
      followed by the digits of the magnitude. */
  function Decimal(n: int): string {
    if n < 0 then "-" + NatDigits(-n) else NatDigits(n)
  }

  function ParseNat(s: string): nat
    requires AllDigits(s)
  {
    if |s| == 0 then 0 else ParseNat(s[..|s| - 1]) * 10 + DigitValue(s[|s| - 1])
  }

  /** The inverse of `Decimal`: reads an optional minus sign and digits. */
  function ParseDecimal(s: string): Option<int> {
    if |s| > 1 && s[0] == '-' && AllDigits(s[1..]) then Some(0 - ParseNat(s[1..]) as int)
    else if |s| > 0 && AllDigits(s) then Some(ParseNat(s))
    else None
  }

  lemma {:induction false} ParseNatDigits(n: nat)
    ensures ParseNat(NatDigits(n)) == n
    decreases n
  {
    if n >= 10 {
      var r := NatDigits(n);
      ParseNatDigits(n / 10);
      assert r[..|r| - 1] == NatDigits(n / 10);
    }
  }

  /** Rendering then reading back an integer yields the integer. */
  lemma DecimalRoundTrip(n: int)
    ensures ParseDecimal(Decimal(n)) == Some(n)
  {
    if n < 0 {
      ParseNatDigits(-n);
      assert ("-" + NatDigits(-n))[1..] == NatDigits(-n);
    } else {
      ParseNatDigits(n);
    }
  }

  /** A rendered integer holds only digits and a leading minus sign, so never `c`. */
  lemma DecimalAvoids(n: int, c: char)
    requires !IsDigit(c) && c != '-'
    ensures forall i :: 0 <= i < |Decimal(n)| ==> Decimal(n)[i] != c
  {
    if n < 0 {
      var d := NatDigits(-n);
      forall i | 1 <= i < |Decimal(n)| ensures Decimal(n)[i] != c {
        assert Decimal(n)[i] == d[i - 1];
      }
    }
  }

  /** Distinct integers render to distinct strings. */
  lemma DecimalInjective(a: int, b: int)
    ensures Decimal(a) == Decimal(b) ==> a == b
  {
    DecimalRoundTrip(a);
    DecimalRoundTrip(b);
  }
}

=== FILE: webview_fetch.dfy ===
/** The refresh of a book from the page currently shown in the in-app
    browser: the parsed book and chapter list replace the stored chapters of
    the local book. The flow's emissions and the store writes are modelled as
    one ordered trace of events. Parsing, the chapter de-duplication and the
    book merge are not visible here and are passed in as functions. */
module WebViewFetch {
  import Wrappers
  import opened Entities
  import Text

  datatype Message = TryingToFetch | FailedToGetContent | TryingInFewSeconds

  /** What the flow emits: `Resource.Error` with a message, `Resource.Success` with a text. */
  datatype Resource = Error(message: Message) | Success(text: string)

  datatype StoreWrite =
    | DeleteChaptersOf(bookId: int)
    | InsertBook(book: Book)
    | InsertChapters(chapters: seq<Chapter>)

  datatype Event = Emit(resource: Resource) | Write(write: StoreWrite)

  /** The outcome of `detailParse` and `chaptersParse` on the page; a
      parser exception is `ParseFailed`. A null chapter list is the empty list. */
  datatype Parsed = ParseFailed | Parsed(book: Book, chapters: seq<Chapter>)

  function Emissions(trace: seq<Event>): seq<Resource> {
    if |trace| == 0 then []
    else (if trace[0].Emit? then [trace[0].resource] else []) + Emissions(trace[1..])
  }

  function Writes(trace: seq<Event>): seq<StoreWrite> {
    if |trace| == 0 then []
    else (if trace[0].Write? then [trace[0].write] else []) + Writes(trace[1..])
  }

  function WriteEvents(writes: seq<StoreWrite>): (r: seq<Event>)
    ensures Writes(r) == writes && Emissions(r) == []
  {
    if |writes| == 0 then [] else [Write(writes[0])] + WriteEvents(writes[1..])
  }

  /** The stored chapters take the local book's id and library flag and the
      clock reading taken for them: the clock is read once per chapter. */
  function Stamp(chapters: seq<Chapter>, book: Book, clock: nat -> int): (r: seq<Chapter>)
    ensures |r| == |chapters|
    ensures forall i :: 0 <= i < |r| ==>
      r[i] == chapters[i].(bookId := book.id, inLibrary := book.favorite, dateFetch := clock(i))
  {
    seq(|chapters|, i requires 0 <= i < |chapters| =>
      chapters[i].(bookId := book.id, inLibrary := book.favorite, dateFetch := clock(i)))
  }

  /** The guard of the write path. */
  predicate WritePathTaken(parsed: Parsed, localChapters: Wrappers.Option<seq<Chapter>>, localBook: Wrappers.Option<Book>) {
    && parsed.Parsed? && |parsed.chapters| > 0
    && localChapters.Some?
    && localBook.Some? && !Text.IsBlank(localBook.value.title)
  }

  function SuccessText(book: Book, count: nat): string {
    book.title + " was fetched with " + Text.Decimal(count) + "   chapters"
  }

  /** The three writes of the write path, in order. */
  function PlannedWrites(parsed: Parsed, localChapters: Wrappers.Option<seq<Chapter>>, localBook: Wrappers.Option<Book>,
                         dedup: (seq<Chapter>, seq<Chapter>) -> seq<Chapter>, merge: (Book, Book) -> Book,
                         clock: nat -> int): seq<StoreWrite>
    requires WritePathTaken(parsed, localChapters, localBook)
  {
    var book := localBook.value;
    [ DeleteChaptersOf(book.id),
      InsertBook(merge(parsed.book, book)),
      InsertChapters(Stamp(dedup(localChapters.value, parsed.chapters), book, clock)) ]
  }

  /** How many of the three writes complete: a write that throws ends the try
      block, so it and every later write have no effect. */
  function CompletedWrites(failingWrite: Wrappers.Option<nat>): nat {
    if failingWrite.Some? && failingWrite.value < 3 then failingWrite.value else 3
  }

  /** `FetchBookDetailAndChapterDetailFromWebView.invoke`.
      `dedup` stands for `removeSameItemsFromList` and `merge` for `updateBook`;
      `failingWrite` names the store write (0, 1 or 2) that throws, if any. */
  function FetchFromWebView(parsed: Parsed, localChapters: Wrappers.Option<seq<Chapter>>, localBook: Wrappers.Option<Book>,
                            dedup: (seq<Chapter>, seq<Chapter>) -> seq<Chapter>, merge: (Book, Book) -> Book,
                            clock: nat -> int, failingWrite: Wrappers.Option<nat>): (trace: seq<Event>)
    // nothing parsed, or a parser threw: one failure and no writes
    ensures parsed.ParseFailed? || |parsed.chapters| == 0 ==>
      Emissions(trace) == [Error(FailedToGetContent)] && Writes(trace) == []
    // otherwise the first event is always the "trying" notice
    ensures parsed.Parsed? && |parsed.chapters| > 0 ==> |trace| > 0 && trace[0] == Emit(Error(TryingToFetch))
    // the store is written only on the guarded path
    ensures Writes(trace) != [] ==> WritePathTaken(parsed, localChapters, localBook)
    // the guarded path without exception: delete, insert book, insert chapters, then one Success last
    ensures WritePathTaken(parsed, localChapters, localBook) && CompletedWrites(failingWrite) == 3 ==>
      && Writes(trace) == PlannedWrites(parsed, localChapters, localBook, dedup, merge, clock)
      && Emissions(trace) == [Error(TryingToFetch), Success(SuccessText(localBook.value, |parsed.chapters|))]
      && |trace| > 0 && trace[|trace| - 1] == Emit(Success(SuccessText(localBook.value, |parsed.chapters|)))
    // a store exception: the writes before it stay done and the trace ends with a failure
    ensures WritePathTaken(parsed, localChapters, localBook) && CompletedWrites(failingWrite) < 3 ==>
      && Writes(trace) == PlannedWrites(parsed, localChapters, localBook, dedup, merge, clock)[..CompletedWrites(failingWrite)]
      && Emissions(trace) == [Error(TryingToFetch), Error(FailedToGetContent)]
      && |trace| > 0 && trace[|trace| - 1] == Emit(Error(FailedToGetContent))
    // chapters present but the guard fails: failure, plus "try again" iff there is no local list
    ensures parsed.Parsed? && |parsed.chapters| > 0 && !WritePathTaken(parsed, localChapters, localBook) ==>
      && Writes(trace) == []
      && Emissions(trace) == [Error(TryingToFetch), Error(FailedToGetContent)]
           + (if localChapters.None? then [Error(TryingInFewSeconds)] else [])
  {
    if parsed.ParseFailed? || |parsed.chapters| == 0 then
      [Emit(Error(FailedToGetContent))]
    else if WritePathTaken(parsed, localChapters, localBook) then
      var done := CompletedWrites(failingWrite);
      var writes := PlannedWrites(parsed, localChapters, localBook, dedup, merge, clock);
      var last := if done < 3 then Error(FailedToGetContent)
                  else Success(SuccessText(localBook.value, |parsed.chapters|));
      Bracketed(writes[..done], last)
    else
      [Emit(Error(TryingToFetch)), Emit(Error(FailedToGetContent))]
        + (if localChapters.None? then [Emit(Error(TryingInFewSeconds))] else [])
  }

  /** The write path's trace: the "trying" notice, the completed writes, and
      one closing emission. */
  function Bracketed(writes: seq<StoreWrite>, last: Resource): (t: seq<Event>)
    ensures Writes(t) == writes
    ensures Emissions(t) == [Error(TryingToFetch), last]
    ensures |t| > 0 && t[0] == Emit(Error(TryingToFetch)) && t[|t| - 1] == Emit(last)
  {
    var t := [Emit(Error(TryingToFetch))] + WriteEvents(writes) + [Emit(last)];
    EmissionsConcat([Emit(Error(TryingToFetch))], WriteEvents(writes), [Emit(last)]);
    WritesConcat([Emit(Error(TryingToFetch))], WriteEvents(writes), [Emit(last)]);
    t
  }

  lemma {:induction false} EmissionsAppend(a: seq<Event>, b: seq<Event>)
    ensures Emissions(a + b) == Emissions(a) + Emissions(b)
  {
    if |a| > 0 {
      EmissionsAppend(a[1..], b);
      assert (a + b)[1..] == a[1..] + b;
    } else {
      assert a + b == b;
    }
  }

  lemma {:induction false} WritesAppend(a: seq<Event>, b: seq<Event>)
    ensures Writes(a + b) == Writes(a) + Writes(b)
  {
    if |a| > 0 {
      WritesAppend(a[1..], b);
      assert (a + b)[1..] == a[1..] + b;
    } else {
      assert a + b == b;
    }
  }

  lemma EmissionsConcat(a: seq<Event>, b: seq<Event>, c: seq<Event>)
    ensures Emissions(a + b + c) == Emissions(a) + Emissions(b) + Emissions(c)
  {
    EmissionsAppend(a + b, c);
    EmissionsAppend(a, b);
  }

  lemma WritesConcat(a: seq<Event>, b: seq<Event>, c: seq<Event>)
    ensures Writes(a + b + c) == Writes(a) + Writes(b) + Writes(c)
  {
    WritesAppend(a + b, c);
    WritesAppend(a, b);
  }

  /** Every chapter written carries the local book's id and library flag. */
  lemma InsertedChaptersAreStamped(parsed: Parsed, localChapters: Wrappers.Option<seq<Chapter>>, localBook: Wrappers.Option<Book>,
                                   dedup: (seq<Chapter>, seq<Chapter>) -> seq<Chapter>, merge: (Book, Book) -> Book,
                                   clock: nat -> int, failingWrite: Wrappers.Option<nat>, w: StoreWrite, c: Chapter)
    requires w in Writes(FetchFromWebView(parsed, localChapters, localBook, dedup, merge, clock, failingWrite))
    requires w.InsertChapters? && c in w.chapters
    ensures localBook.Some? && c.bookId == localBook.value.id && c.inLibrary == localBook.value.favorite
  {
    var trace := FetchFromWebView(parsed, localChapters, localBook, dedup, merge, clock, failingWrite);
    assert WritePathTaken(parsed, localChapters, localBook);
    var all := PlannedWrites(parsed, localChapters, localBook, dedup, merge, clock);
    assert w in all by {
      var k := CompletedWrites(failingWrite);
      assert Writes(trace) == all[..k];
      assert forall x :: x in all[..k] ==> x in all;
    }
    assert w == all[2];
  }

  /** The fetch date is common to all chapters only while the clock stands still. */
  lemma SteadyClockGivesCommonDate(chapters: seq<Chapter>, book: Book, clock: nat -> int, t: int)
    requires forall i: nat :: clock(i) == t
    ensures forall c :: c in Stamp(chapters, book, clock) ==> c.dateFetch == t
  {
  }

  /** The writes are not atomic: when inserting the book throws, the local
      chapters have been deleted and nothing replaces them. */
  lemma DeleteWithoutInsert(parsed: Parsed, localChapters: Wrappers.Option<seq<Chapter>>, localBook: Wrappers.Option<Book>,
                            dedup: (seq<Chapter>, seq<Chapter>) -> seq<Chapter>, merge: (Book, Book) -> Book,
                            clock: nat -> int)
    requires WritePathTaken(parsed, localChapters, localBook)
    ensures Writes(FetchFromWebView(parsed, localChapters, localBook, dedup, merge, clock, Wrappers.Some(1)))
      == [DeleteChaptersOf(localBook.value.id)]
  {
  }
}

=== FILE: wrappers.dfy ===
/** Kotlin's nullable values become `Option`; thrown exceptions and error
    returns become `Result`. */
module Wrappers {

  /** A nullable value: `None` stands for Kotlin's `null`. */
  datatype Option<+T> = None | Some(value: T)

  /** The outcome of a call that may throw: `Failure` carries the error. */
  datatype Result<+R, +E> = Success(value: R) | Failure(error: E)
}
